=== FILE: README.md ===
# github-stars-notion-sync, modelled in Dafny

This project models the reconciliation engine of github-stars-notion-sync.
The engine keeps a Notion database in step with a user's GitHub stars:

1. It reads the Notion database's description and checks its schema.
2. It reads every page of the database and every starred repository.
3. It plans the pages to create (starred repositories with no page) and the
   pages to archive (pages whose repository is no longer starred).
4. It attempts each planned write once, keeping going after failures.
5. It reports the run through an optional WeChat Work notifier.

The sync command's flag handling is modelled too.

The GitHub and Notion clients are modelled as functions from request to
response, stored in the `Syncer` datatype. A run returns the list of
requests it issued, in order (`Syncer.Call`). That list is what "attempted
exactly once" and "never queried after a failed validation" are stated
about. All operations are pure functions over immutable datatypes, except
three methods in `Ingest`: the two ingestion loops, each proved equal to a
generic paginated drain (`Paging.Drain`), and `AddDecoded`, the inner loop
that decodes one response's results.

| file | module | models |
|---|---|---|
| wrappers.dfy | Wrappers | `Option`, `Result`, `Outcome` (an error or nothing) |
| text.dfy | Text | Go's `strings.Split`, `strings.Contains` and `%d` on the values used |
| collections.dfy | Collections | the starred-repository collection and the database-page collection: an ordered list plus a set of IDs |
| schema.dfy | Schema | `validateDatabaseFields` |
| sequences.dfy | Sequences | subsequences and occurrence counts, shared by planning and applying |
| paging.dfy | Paging | the common shape of the two pagination loops |
| ingest.dfy | Ingest | `fetchGitHubStarredRepos`, `getPagesFromNotionDatabase`, page decoding |
| reconcile.dfy | Reconcile | the two planning loops of `doSync` |
| apply.dfy | Apply | the two apply loops of `doSync` and their failure lines |
| report.dfy | Report | `genNotificationMessage` |
| syncer.dfy | Syncer | `New`, `SyncStars`, `doSync`, the request log |
| wechat.dfy | Wechat | `NewWechatNotifier`, the nil guard of `SendMsg`, the "ok" check |
| flags.dfy | Flags | `validateRequiredFlags`, `parseFlags` |

## Model

| member | source | states |
|---|---|---|
| Syncer.New | internal/syncer/syncer.go:40-54 | A missing GitHub client gives the GitHub error and is checked first. A missing Notion client gives the Notion error. Otherwise the syncer holds both clients and the notifier, which may be absent. |
| Syncer.SyncError.Message | internal/syncer/syncer.go:64-88 | A stage's error text ends with the text of the error it wraps, after a prefix naming the stage. |
| Syncer.ReadStages | internal/syncer/syncer.go:61-90 | The first request is the database get, and requests go in stage order. The stages all succeed exactly when the database is read, its schema passes and both drains succeed; the result is then the two drained lists. Each failing stage ends the run with its own error and request list. A failed get gives that error, wrapped as a database error, after the get alone. A failed schema check gives the validation error after the get alone. A failed Notion drain gives the drain's error, wrapped as a pages error, after the get and exactly the drain's queries. A failed GitHub drain gives the drain's error, wrapped as a stars error, after the get, the queries and exactly the drain's listings. No stage returns a nil-client error. |
| Syncer.ReadPages | internal/syncer/syncer.go:77-80 | The requests are exactly the Notion drain's queries of the given database, one per cursor in order. The stage succeeds exactly when the drain does, with the drained pages. Otherwise it gives the drain's error wrapped as a pages error. |
| Syncer.ReadStars | internal/syncer/syncer.go:85-88 | The requests are exactly the GitHub drain's listings, one per page number in order. The stage succeeds exactly when the drain does, with the drained repositories. Otherwise it gives the drain's error wrapped as a stars error. |
| Syncer.SyncStars | internal/syncer/syncer.go:61-97 | The first request is the database get, and requests go in stage order. The run passes exactly when every stage succeeds. A failed run issues no create or archive and sends no notification. A successful run ends with exactly the writes of `doSync` on what was read, and sends its notification. |
| Syncer.SyncStarsStopsEarly | internal/syncer/syncer.go:65-88 | A run that fails returns the failing stage's own error and sends nothing. A failed get or schema check leaves the get as the only request. A failed Notion drain issues the get and the drain's queries. A failed GitHub drain issues those plus the drain's listings. No create or archive is issued, and a run never fails with a nil-client error. |
| Syncer.EarlyExitNeedsNoUpstream | internal/syncer/syncer.go:65-74 | A run whose database get or schema check fails needs no upstream to end. With no budget at all, it fails after the get alone and sends nothing. |
| Syncer.SyncStarsFullRun | internal/syncer/syncer.go:61-97 | A run in which every stage succeeds passes. It issues the database get, every query, every listing and then the writes of `doSync` on what was read, and sends the notification `doSync` sends. |
| Syncer.StageOrderPairwise | internal/syncer/syncer.go:61-97 | In a run's request list, no request belongs to an earlier stage than one issued before it. |
| Syncer.DoSync | internal/syncer/syncer.go:185-236 | The counts are the number of stars and of pages. The plans are exactly the repositories without a page and the pages whose repository is not starred, each the planning loop's list. The failure lines are those of the create loop over the create plan with the Notion create, then those of the archive loop over the delete plan with the Notion archive, so there are no more failure lines than planned items. Every planned create, then every planned archive, is issued exactly once in plan order, and nothing else is issued. A notification goes out exactly when a notifier exists: the notifier's send of the report message, to its configured user and agent. |
| Syncer.WriteCalls | internal/syncer/syncer.go:204-225 | The creates are issued in plan order, then the archives in plan order. Each planned item is issued once, and every request is a write. |
| Syncer.SyncContent | internal/syncer/syncer.go:186-234 | The report record holds the star and page counts and the two plans, which are the planning loops' lists (membership exactly as the set difference). Its failure lines are the create loop's lines over the create plan with the Notion create of the database, and the archive loop's lines over the delete plan with the Notion archive of each page's ID. There is at most one failure line per planned item. |
| Schema.ValidateDatabaseFields | internal/syncer/syncer.go:99-111 | Passes exactly when every required property is declared with its type. Otherwise the error concerns the first failing property in list order: "missing" when it is undeclared, "wrong type" (with both types) when it is declared. |
| Paging.DrainCollects | internal/syncer/syncer.go:121-146 | A drain succeeds exactly when every request it made succeeded. It then holds every record of every page in arrival order; otherwise it holds the error of its last request. |
| Paging.RequestedChain | internal/syncer/syncer.go:154-181 | Every request but the last succeeded and named the next cursor, which is the next request. The last request failed or named no next page. |
| Ingest.GitHubPagination | internal/syncer/syncer.go:121-144 | GitHub pages are requested from page 0. The loop continues exactly while the response's next page is non-zero, and it requests that page next. |
| Ingest.FetchGitHubStarredRepos | internal/syncer/syncer.go:114-147 | The loop issues exactly the drain's requests. It succeeds exactly when the drain does, with every repository of every page in arrival order, or returns the failing request's error. |
| Ingest.NotionPagination | internal/syncer/syncer.go:154-179 | Notion queries start from the empty cursor. The loop continues exactly while the response says it has more, from the cursor the response names. |
| Ingest.GetPagesFromNotionDatabase | internal/syncer/syncer.go:150-182 | The loop issues exactly the drain's queries. It succeeds exactly when the drain does, with every decoded page in arrival order, or returns the query error or the first undecodable page. |
| Ingest.AddDecoded | internal/syncer/syncer.go:163-172 | Decoding one response's results appends them all in order, or stops at the first result that cannot be decoded. |
| Ingest.DecodePage | internal/syncer/syncer.go:164-171 | A result decodes exactly when its title property is a non-empty title and its repo-ID property is a number. The page is then the result's ID, first title text and number. Otherwise the error names the page and the first property the source would have failed on. |
| Ingest.DecodeAll | internal/syncer/syncer.go:163-172 | All results decode exactly when each is well-shaped, one page per result in order. Otherwise the error is that of the first result that is not well-shaped. |
| Reconcile.PagesToCreate | internal/syncer/syncer.go:189-194 | A repository is planned exactly when it is starred and the database has no page for its ID. Each such repository is planned as many times as it is starred, and the others not at all. |
| Reconcile.PagesToDelete | internal/syncer/syncer.go:196-201 | A page is planned exactly when it is in the database and its repository ID is not starred. Each such page is planned as many times as it is listed, and the others not at all. |
| Reconcile.PagesToCreateKeepsOrder | internal/syncer/syncer.go:190-194 | The create plan is a subsequence of the starred repositories: their order is kept. |
| Reconcile.PagesToDeleteKeepsOrder | internal/syncer/syncer.go:197-201 | The delete plan is a subsequence of the database pages: their order is kept. |
| Reconcile.CreateCount | internal/syncer/syncer.go:190-194 | With unique repository IDs, the planned creates plus the starred IDs already in the database make up all stars. |
| Reconcile.DeleteCount | internal/syncer/syncer.go:197-201 | With unique page repository IDs, the planned deletes plus the pages still starred make up all pages. |
| Reconcile.PlanBoundaries | internal/syncer/syncer.go:186-201 | No stars deletes every page and creates nothing. An empty database creates every star and deletes nothing. Equal ID sets plan nothing. |
| Reconcile.ApplyConverges | internal/syncer/syncer.go:186-225 | Once every planned write has taken effect, the database's IDs are exactly the starred IDs, and a second run plans nothing. |
| Apply.Failing | internal/syncer/syncer.go:204-225 | The failed items are a subsequence of the plan. An item appears among them exactly when its attempt fails, and then as many times as it is planned. |
| Apply.ApplyCreates | internal/syncer/syncer.go:204-213 | There is one failure line per failed create, in plan order, reading "repo: " + name + " error: " + message. There are never more lines than planned creates. |
| Apply.ApplyDeletes | internal/syncer/syncer.go:216-225 | There is one failure line per failed archive, in plan order, reading "page: " + title + " error: " + message. There are never more lines than planned archives. |
| Apply.FailuresAndSuccessesPartition | internal/syncer/syncer.go:204-225 | Every attempt either fails or succeeds: the failed and successful items together number the plan. |
| Apply.OneOfThreeFails | internal/syncer/syncer.go:205-213 | When exactly one of three planned creates fails, whichever it is, there is exactly one failure line, for that repository and with its error, and two creates succeed. |
| Report.ReportAsWritten | internal/syncer/syncer.go:238-279 | The message is the header, a blank line and the four count lines, then the Created, Deleted, Create Failed and Delete Failed blocks in that order. Each block is written only when its list is non-empty, as its title, one line per item and a blank line. |
| Report.ReportRoundTrip | internal/syncer/syncer.go:238-279 | When no item spans several lines, splitting the message at newlines gives the report's lines followed by one empty string, the text after the final newline. |
| Report.CountsReadBack | internal/syncer/syncer.go:240-244 | The header comes first. The four count lines carry the star count, the page count and the planned (not the successful) create and delete counts, in decimal that parses back. |
| Report.SectionsPresentIffNonEmpty | internal/syncer/syncer.go:246-276 | When no item line equals a section title, each section title is one of the report's lines exactly when its list is non-empty. |
| Text.Split | internal/notifications/wechat.go:43 | Splitting gives one more part than there are separators, and no part contains the separator. |
| Text.JoinSplit | internal/notifications/wechat.go:43 | Joining the parts of a split with the separator gives back the input. |
| Text.SplitJoin | internal/notifications/wechat.go:43 | Splitting the join of separator-free parts gives back those parts. |
| Text.Contains | internal/notifications/wechat.go:90 | True exactly when the substring occurs at some position. |
| Text.NatToString | internal/syncer/syncer.go:241-244 | The rendering is non-empty, all decimal digits, with no leading zero. |
| Text.ParseNatToString | internal/syncer/syncer.go:241-244 | Reading a rendered count back gives the count. |
| Wechat.NewWechatNotifier | internal/notifications/wechat.go:37-55 | There is a notifier exactly when the parameters have at least three commas, so at least four fields; the empty string gives none. Its four fields are the first four comma-free fields in order, and the rest is ignored. |
| Wechat.NewWechatNotifierRoundTrip | internal/notifications/wechat.go:43-54 | Parameters built from four comma-free fields, with anything after a further comma, give exactly those four fields. |
| Wechat.SendMsg | internal/notifications/wechat.go:57-70 | An absent notifier sends nothing. A present one sends the message text to its user and agent. |
| Wechat.SendSucceeded | internal/notifications/wechat.go:90-95 | A response counts as success exactly when its error message contains "ok". |
| Flags.CheckInOrder | cmd/sync/flags.go:40-52 | Checking the required flags in a given order passes exactly when all are defined and non-empty. Otherwise the error is the first failing flag's: a lookup error when undefined, its mapped error when empty. |
| Flags.ValidateRequiredFlags | cmd/sync/flags.go:33-52 | Under any iteration order of the required-flag map, validation passes exactly when all three flags are defined and non-empty. Otherwise it reports some failing required flag. When all are defined, that is the mapped error of some empty one. |
| Flags.AnyEmptyFlagMayBeReported | cmd/sync/flags.go:33-49 | Any required flag that is defined and empty is the one reported under some iteration order, whatever the other flags hold. |
| Flags.FlagError.Message | cmd/sync/flags.go:19-21 | The text of the error a required flag maps to is that flag's name followed by " is required". |
| Flags.ParseFlags | cmd/sync/flags.go:55-82 | Parsing fails exactly when a required flag is undefined. The lookup error of the first such flag (GitHub token, Notion token, database ID) is passed through with zero flags. On success each value is copied to its field, and the WeChat parameters read as empty when they cannot be looked up. |
| Flags.ValidatedFlagsParse | cmd/sync/flags.go:40-82 | Flags that pass validation also parse, with all three required values non-empty. |

Details of the modelled behaviour:

- The "Created:" and "Deleted:" blocks of the report, and the "Create Num"
  and "Delete Num" lines, list the planned items, including those whose
  write failed.
- A failure line reads "repo: NAME error: MESSAGE" for a create and
  "page: TITLE error: MESSAGE" for an archive.
- The stages run one after another: database get, schema check, Notion
  pages, then GitHub stars.
- The Notion cursor is a plain string, and the first query uses the empty
  string.
- When one create among three fails, the "Created:" block lists all three
  planned repositories. The two successful creates are given by
  `Apply.Succeeding`.

## Left out

- HTTP, JSON and access-token plumbing of the WeChat notifier (`httpPost`, `getAccessToken`, body marshalling) is network I/O. `SendMsg` is modelled up to the request it would post. `SendSucceeded` models the "ok" test on the response.
- Concrete GitHub and Notion calls (`Activity.ListStarred`, `Database.Get`, `Database.Query`, `Page.Create`, `Page.Update`) are oracle functions in `Syncer.GitHubClient` and `Syncer.NotionClient`. `buildCreatePageRequestFromRepo` is not part of this model: a create is identified by the database ID and the repository.
- The collection types and `requiredProperties` are defined in files that are not part of this model. The collections are an ordered list plus a set of IDs, with `Add` appending. The required properties and the two property names read from each page are parameters (`Schema.RequiredProperty`, `Ingest.PageFields`).
- Apply.Failing: the Notion client is a pure function, so repeated attempts of an identical item (a repository the GitHub listing returns twice, say) share one outcome. The source issues a separate request per planned copy, and those requests could differ.
- Logging, `context.Context` cancellation and the `StarredAt` timestamp are not modelled.
- The Notion number property is a float64 converted with `int64(...)`. The model reads it as an integer, so float truncation is not modelled.
- Ingest.DecodePage: the source panics on an unexpected property type or an empty title. The model returns a `BadField` error naming the page and property instead. The text of that error is the model's own.
- Ingest.FetchGitHubStarredRepos: on a failed request the source also returns the repositories collected so far. The model returns only the error, which every caller uses alone.
- Ingest.GetPagesFromNotionDatabase: likewise, the partially filled page collection returned with an error is not modelled.
- Syncer.SyncStars: requires that each pagination loop the run reaches ends within a budget (`Syncer.ReachedStagesStop`): the Notion loop once the schema check passes, the GitHub loop once the Notion loop succeeds. The source loops for as long as the upstream says there is more, so an endless upstream in a reached stage is not modelled. A run that stops earlier constrains neither upstream (`Syncer.EarlyExitNeedsNoUpstream`).
- Syncer.SyncStars: the "error syncing notion database" wrapping is not modelled. `doSync` never returns an error, so that branch cannot be taken.
- Syncer.SyncStars: sends the notification only on a successful run, as the source does. What the notifier does with it (token fetch, post, response check) is not part of the run's result.
- Flags.ParseFlags: a lookup error carries the flag library's own text in the source. The model carries only the flag name (`Flags.FlagError.LookupFailed`).
- Go's map iteration order in `validateRequiredFlags` is unspecified. It is a parameter constrained to enumerate the three required flags once each.

=== FILE: apply.dfy ===
/** The apply phase of `doSync`: every planned create or archive is attempted
    once, in plan order; a failure is recorded as a line of text and the loop
    goes on with the next item. */
module Apply {
  import opened Wrappers
  import opened Collections
  import opened Sequences

  /** The items whose attempt fails, in plan order. */
  function Failing<X(!new)>(items: seq<X>, attempt: X -> Outcome<string>): (r: seq<X>)
    ensures forall x :: x in r <==> x in items && attempt(x).Fail?
    ensures forall x {:trigger multiset(r)[x]} :: multiset(r)[x] == if attempt(x).Fail? then multiset(items)[x] else 0
    ensures IsSubsequence(r, items)
    ensures |r| <= |items|
    decreases |items|
  {
    if |items| == 0 then []
    else
      var rest := Failing(items[1..], attempt);
      assert forall x :: x in items <==> x == items[0] || x in items[1..];
      MultisetCons(items);
      if attempt(items[0]).Fail? then
        MultisetCons([items[0]] + rest);
        assert ([items[0]] + rest)[1..] == rest;
        [items[0]] + rest
      else
        SubsequenceOfTail(rest, items);
        rest
  }

  /** The items whose attempt succeeds, in plan order. */
  function Succeeding<X(!new)>(items: seq<X>, attempt: X -> Outcome<string>): (r: seq<X>)
    ensures forall x :: x in r <==> x in items && attempt(x).Pass?
    decreases |items|
  {
    if |items| == 0 then []
    else
      var rest := Succeeding(items[1..], attempt);
      assert forall x :: x in items <==> x == items[0] || x in items[1..];
      if attempt(items[0]).Pass? then [items[0]] + rest else rest
  }

  /** Every attempt either fails or succeeds, so the two lists together are
      as long as the plan. */
  lemma {:induction false} FailuresAndSuccessesPartition<X(!new)>(items: seq<X>, attempt: X -> Outcome<string>)
    ensures |Failing(items, attempt)| + |Succeeding(items, attempt)| == |items|
    decreases |items|
  {
    if |items| > 0 {
      FailuresAndSuccessesPartition(items[1..], attempt);
    }
  }

  /** The line recorded for a repository whose page could not be created. */
  function CreateFailureLine(repo: StarredRepo, message: string): string
  {
    "repo: " + repo.name + " error: " + message
  }

  /** The line recorded for a page that could not be archived. */
  function DeleteFailureLine(page: NotionPage, message: string): string
  {
    "page: " + page.title + " error: " + message
  }

  /** The create loop: one line per repository whose create failed, in plan
      order, carrying that repository's name and the error text. */
  function ApplyCreates(toCreate: seq<StarredRepo>, create: StarredRepo -> Outcome<string>): (failed: seq<string>)
    ensures |failed| == |Failing(toCreate, create)| <= |toCreate|
    ensures forall k :: 0 <= k < |failed| ==>
              var repo := Failing(toCreate, create)[k];
              failed[k] == CreateFailureLine(repo, create(repo).error)
    decreases |toCreate|
  {
    if |toCreate| == 0 then []
    else
      var rest := ApplyCreates(toCreate[1..], create);
      match create(toCreate[0])
      case Pass => rest
      case Fail(message) => [CreateFailureLine(toCreate[0], message)] + rest
  }

  /** The archive loop: one line per page whose archive failed, in plan
      order, carrying that page's title and the error text. */
  function ApplyDeletes(toDelete: seq<NotionPage>, archive: NotionPage -> Outcome<string>): (failed: seq<string>)
    ensures |failed| == |Failing(toDelete, archive)| <= |toDelete|
    ensures forall k :: 0 <= k < |failed| ==>
              var page := Failing(toDelete, archive)[k];
              failed[k] == DeleteFailureLine(page, archive(page).error)
    decreases |toDelete|
  {
    if |toDelete| == 0 then []
    else
      var rest := ApplyDeletes(toDelete[1..], archive);
      match archive(toDelete[0])
      case Pass => rest
      case Fail(message) => [DeleteFailureLine(toDelete[0], message)] + rest
  }

  /** One failed create among three, whichever it is, leaves exactly one
      failure line, for that repository, and two created pages; the run
      itself does not fail. */
  lemma OneOfThreeFails(a: StarredRepo, b: StarredRepo, c: StarredRepo, create: StarredRepo -> Outcome<string>)
    requires |Failing([a, b, c], create)| == 1
    ensures var failed := Failing([a, b, c], create)[0];
            && (failed == a || failed == b || failed == c)
            && create(failed).Fail?
            && ApplyCreates([a, b, c], create) == [CreateFailureLine(failed, create(failed).error)]
    ensures |Succeeding([a, b, c], create)| == 2
  {
    var failed := Failing([a, b, c], create)[0];
    assert failed in Failing([a, b, c], create);
    FailuresAndSuccessesPartition([a, b, c], create);
  }
}

=== FILE: collections.dfy ===
/** The two run-scoped collections the reconciliation engine works on: the
    starred repositories read from GitHub and the pages read from the Notion
    database. Each is an arrival-ordered sequence plus the set of GitHub IDs
    it holds, so that membership is a set lookup. */
module Collections {

  /** One starred repository (its `StarredAt` timestamp is not modelled). */
  datatype StarredRepo = StarredRepo(
    id: int,
    name: string,
    description: string,
    url: string,
    topics: seq<string>,
    language: string)

  /** One row of the Notion database: its page ID, its title and the GitHub ID
      of the repository it stands for. */
  datatype NotionPage = NotionPage(id: string, title: string, gitHubID: int)

  /** The GitHub IDs of some repositories. */
  function RepoIDs(repos: seq<StarredRepo>): set<int>
  {
    set r | r in repos :: r.id
  }

  /** The GitHub IDs that some pages point back to. */
  function PageRepoIDs(pages: seq<NotionPage>): set<int>
  {
    set p | p in pages :: p.gitHubID
  }

  datatype StarredRepoCollection = StarredRepoCollection(repos: seq<StarredRepo>, ids: set<int>)
  {
    /** The ID index agrees with the ordered sequence. */
    ghost predicate Valid()
    {
      ids == RepoIDs(repos)
    }

    /** Whether a repository with this ID is starred. */
    function Contains(id: int): (b: bool)
      ensures Valid() ==> (b <==> exists i :: 0 <= i < |repos| && repos[i].id == id)
    {
      if id in ids then
        assert Valid() ==> exists r :: r in repos && r.id == id;
        true
      else
        false
    }

    /** Appends a repository, keeping arrival order. */
    function Add(repo: StarredRepo): (c: StarredRepoCollection)
      ensures c.repos == repos + [repo]
      ensures c.ids == ids + {repo.id}
      ensures Valid() ==> c.Valid()
    {
      assert RepoIDs(repos + [repo]) == RepoIDs(repos) + {repo.id} by {
        assert forall r :: r in repos + [repo] <==> r in repos || r == repo;
      }
      StarredRepoCollection(repos + [repo], ids + {repo.id})
    }
  }

  datatype DatabasePages = DatabasePages(pages: seq<NotionPage>, ids: set<int>)
  {
    /** The GitHub-ID index agrees with the ordered sequence. */
    ghost predicate Valid()
    {
      ids == PageRepoIDs(pages)
    }

    /** Whether some page stands for the repository with this GitHub ID. */
    function ContainsRepo(id: int): (b: bool)
      ensures Valid() ==> (b <==> exists i :: 0 <= i < |pages| && pages[i].gitHubID == id)
    {
      if id in ids then
        assert Valid() ==> exists p :: p in pages && p.gitHubID == id;
        true
      else
        false
    }

    /** Appends a page, keeping arrival order. */
    function Add(page: NotionPage): (c: DatabasePages)
      ensures c.pages == pages + [page]
      ensures c.ids == ids + {page.gitHubID}
      ensures Valid() ==> c.Valid()
    {
      assert PageRepoIDs(pages + [page]) == PageRepoIDs(pages) + {page.gitHubID} by {
        assert forall p :: p in pages + [page] <==> p in pages || p == page;
      }
      DatabasePages(pages + [page], ids + {page.gitHubID})
    }
  }

  function NewStarredRepoCollection(): (c: StarredRepoCollection)
    ensures c.Valid() && c.repos == []
  {
    StarredRepoCollection([], {})
  }

  function NewDatabasePages(): (c: DatabasePages)
    ensures c.Valid() && c.pages == []
  {
    DatabasePages([], {})
  }

  /** The collection holding exactly `repos`, in that order. */
  function StarredRepoCollectionOf(repos: seq<StarredRepo>): (c: StarredRepoCollection)
    ensures c.Valid() && c.repos == repos
  {
    StarredRepoCollection(repos, RepoIDs(repos))
  }

  /** The collection holding exactly `pages`, in that order. */
  function DatabasePagesOf(pages: seq<NotionPage>): (c: DatabasePages)
    ensures c.Valid() && c.pages == pages
  {
    DatabasePages(pages, PageRepoIDs(pages))
  }
}

=== FILE: flags.dfy ===
/** The sync command's flags: the three required ones must be defined and
    non-empty; the WeChat parameters are optional. A flag set is a map from
    flag name to string value; looking up a name with no entry is the
    lookup error of the flag library. */
module Flags {
  import opened Wrappers

  const FlagGitHubToken := "github-token"
  const FlagNotionToken := "notion-token"
  const FlagNotionDatabaseID := "notion-database-id"
  const FlagNotificationWechatParams := "notification-wechat-params"

  type FlagSet = map<string, string>

  datatype FlagError =
    | LookupFailed(flag: string)
    | GitHubTokenRequired
    | NotionTokenRequired
    | NotionDatabaseIDRequired
  {
    /** The texts of the errors the command defines (a lookup error carries
        the flag library's own text, not modelled). */
    function Message(): (m: string)
      requires !LookupFailed?
      ensures forall f :: f in RequiredFlags && RequiredFlags[f] == this ==> m == f + " is required"
    {
      match this
      case GitHubTokenRequired => "github-token is required"
      case NotionTokenRequired => "notion-token is required"
      case NotionDatabaseIDRequired => "notion-database-id is required"
    }
  }

  /** Everything the command needs to run. */
  datatype Flags = Flags(
    gitHubToken: string,
    notionToken: string,
    notionDatabaseID: string,
    notificationWechatParams: string)

  const ZeroFlags := Flags("", "", "", "")

  /** Each required flag and the error reported when it is empty. */
  const RequiredFlags: map<string, FlagError> := map[
    FlagGitHubToken := GitHubTokenRequired,
    FlagNotionToken := NotionTokenRequired,
    FlagNotionDatabaseID := NotionDatabaseIDRequired]

  /** The flag's value, or the lookup error when it is not defined. */
  function GetString(flags: FlagSet, name: string): (r: Result<string, FlagError>)
    ensures r.Success? <==> name in flags
    ensures r.Success? ==> r.value == flags[name]
    ensures r.Failure? ==> r.error == LookupFailed(name)
  {
    if name in flags then Success(flags[name]) else Failure(LookupFailed(name))
  }

  /** The flag is defined and not empty. */
  predicate Provided(flags: FlagSet, name: string)
  {
    name in flags && flags[name] != ""
  }

  /** `e` is what the check of `name` reports: the lookup error when it is
      not defined, its own error when it is empty. */
  predicate ReportsProblemWith(flags: FlagSet, name: string, e: FlagError)
    requires name in RequiredFlags
  {
    if name !in flags then e == LookupFailed(name)
    else flags[name] == "" && e == RequiredFlags[name]
  }

  /** The loop of `validateRequiredFlags` over the required flags in the
      given order: the first flag that is undefined or empty decides the
      error. */
  function CheckInOrder(flags: FlagSet, order: seq<string>): (r: Outcome<FlagError>)
    requires forall i :: 0 <= i < |order| ==> order[i] in RequiredFlags
    ensures r.Pass? <==> forall i :: 0 <= i < |order| ==> Provided(flags, order[i])
    ensures r.Fail? ==> exists i :: 0 <= i < |order| && ReportsProblemWith(flags, order[i], r.error)
                                    && forall j :: 0 <= j < i ==> Provided(flags, order[j])
    decreases |order|
  {
    if |order| == 0 then Pass
    else
      match GetString(flags, order[0])
      case Failure(e) => Fail(e)
      case Success(v) =>
        if v == "" then Fail(RequiredFlags[order[0]])
        else
          var r := CheckInOrder(flags, order[1..]);
          assert forall i :: 0 < i < |order| ==> order[i] == order[1..][i - 1];
          r
  }

  /** An order in which Go may range over `requiredFlags`: each of its three
      keys, once. */
  ghost predicate IsRangeOrder(order: seq<string>)
  {
    |order| == 3 && forall f :: f in order <==> f in RequiredFlags
  }

  /** The source's `validateRequiredFlags`, with Go's unspecified map
      iteration order made a parameter: no error iff every required flag is
      defined and non-empty; otherwise the lookup error of an undefined
      required flag, or the error mapped to an empty one. */
  function ValidateRequiredFlags(flags: FlagSet, order: seq<string>): (r: Outcome<FlagError>)
    requires IsRangeOrder(order)
    ensures r.Pass? <==> forall f :: f in RequiredFlags ==> Provided(flags, f)
    ensures r.Fail? ==> exists f :: f in RequiredFlags && ReportsProblemWith(flags, f, r.error)
    ensures r.Fail? && (forall f :: f in RequiredFlags ==> f in flags) ==>
              exists f :: f in RequiredFlags && flags[f] == "" && r.error == RequiredFlags[f]
  {
    assert forall i :: 0 <= i < |order| ==> order[i] in order;
    CheckInOrder(flags, order)
  }

  /** Which empty flag is reported depends only on the iteration order: any
      empty required flag is the one reported under some order. */
  lemma AnyEmptyFlagMayBeReported(flags: FlagSet, f: string)
    requires f in RequiredFlags && f in flags && flags[f] == ""
    ensures exists order :: IsRangeOrder(order) && ValidateRequiredFlags(flags, order) == Fail(RequiredFlags[f])
  {
    var order :=
      if f == FlagGitHubToken then [FlagGitHubToken, FlagNotionToken, FlagNotionDatabaseID]
      else if f == FlagNotionToken then [FlagNotionToken, FlagGitHubToken, FlagNotionDatabaseID]
      else [FlagNotionDatabaseID, FlagGitHubToken, FlagNotionToken];
    assert IsRangeOrder(order);
    assert ValidateRequiredFlags(flags, order) == Fail(RequiredFlags[f]);
  }

  /** The source's `parseFlags`: a lookup error on a required flag is
      returned unchanged with zero flags; the WeChat parameters are read
      as empty when their lookup fails, and never cause an error. */
  function ParseFlags(flags: FlagSet): (r: (Flags, Outcome<FlagError>))
    ensures r.1.Fail? <==> FlagGitHubToken !in flags || FlagNotionToken !in flags || FlagNotionDatabaseID !in flags
    ensures r.1.Fail? ==> r.0 == ZeroFlags
    ensures FlagGitHubToken !in flags ==> r.1 == Fail(LookupFailed(FlagGitHubToken))
    ensures FlagGitHubToken in flags && FlagNotionToken !in flags ==> r.1 == Fail(LookupFailed(FlagNotionToken))
    ensures FlagGitHubToken in flags && FlagNotionToken in flags && FlagNotionDatabaseID !in flags
            ==> r.1 == Fail(LookupFailed(FlagNotionDatabaseID))
    ensures r.1.Pass? ==>
              && r.0.gitHubToken == flags[FlagGitHubToken]
              && r.0.notionToken == flags[FlagNotionToken]
              && r.0.notionDatabaseID == flags[FlagNotionDatabaseID]
              && r.0.notificationWechatParams
                 == (if FlagNotificationWechatParams in flags then flags[FlagNotificationWechatParams] else "")
  {
    match GetString(flags, FlagGitHubToken)
    case Failure(e) => (ZeroFlags, Fail(e))
    case Success(gitHubToken) =>
      match GetString(flags, FlagNotionToken)
      case Failure(e) => (ZeroFlags, Fail(e))
      case Success(notionToken) =>
        match GetString(flags, FlagNotionDatabaseID)
        case Failure(e) => (ZeroFlags, Fail(e))
        case Success(notionDatabaseID) =>
          var wechat := GetString(flags, FlagNotificationWechatParams);
          var params := if wechat.Success? then wechat.value else "";
          (Flags(gitHubToken, notionToken, notionDatabaseID, params), Pass)
  }

  /** Flags that pass validation, under any iteration order, also parse,
      and every required value the command goes on with is non-empty. */
  lemma ValidatedFlagsParse(flags: FlagSet, order: seq<string>)
    requires IsRangeOrder(order) && ValidateRequiredFlags(flags, order).Pass?
    ensures ParseFlags(flags).1.Pass?
    ensures ParseFlags(flags).0.gitHubToken != ""
    ensures ParseFlags(flags).0.notionToken != ""
    ensures ParseFlags(flags).0.notionDatabaseID != ""
  {
    assert Provided(flags, FlagGitHubToken);
    assert Provided(flags, FlagNotionToken);
    assert Provided(flags, FlagNotionDatabaseID);
  }
}

=== FILE: ingest.dfy ===
/** The two ingestion loops of the syncer: GitHub's starred repositories,
    requested by page number, and the Notion database's pages, requested by
    start cursor. Each upstream is a function from request to response. */
module Ingest {
  import opened Wrappers
  import opened Collections
  import Paging

  /** Page sizes the syncer asks for. */
  const GitHubReposPerPage: nat := 100
  const NotionPagesPerPage: nat := 50

  // ---------------------------------------------------------------- GitHub

  /** One response of GitHub's starred-repository listing: its repositories and
      `NextPage`, which is 0 on the last page. */
  datatype StarsPage = StarsPage(repos: seq<StarredRepo>, nextPage: nat)

  /** GitHub's listing by requested page number; the first request leaves the
      page number unset, which is page 0. */
  type StarsLister = nat -> Result<StarsPage, string>

  /** The listing seen as a paginated upstream: a `NextPage` of 0 means no
      further page. */
  function StarsFetcher(list: StarsLister): nat -> Result<Paging.Batch<nat, StarredRepo>, string>
  {
    (page: nat) =>
      match list(page)
      case Failure(e) => Failure(e)
      case Success(p) => Success(Paging.Batch(p.repos, if p.nextPage == 0 then None else Some(p.nextPage)))
  }

  /** The GitHub loop first requests page 0, stops exactly when a response
      has `NextPage == 0` or fails, and otherwise requests page `NextPage`. */
  lemma GitHubPagination(list: StarsLister, budget: nat)
    requires Paging.Stops(StarsFetcher(list), 0, budget)
    ensures var r := Paging.Requested(StarsFetcher(list), 0, budget);
      && r[0] == 0
      && (forall i :: 0 <= i < |r| - 1 ==>
            && list(r[i]).Success?
            && list(r[i]).value.nextPage != 0
            && r[i + 1] == list(r[i]).value.nextPage)
      && (list(r[|r| - 1]).Failure? || list(r[|r| - 1]).value.nextPage == 0)
  {
    var fetch := StarsFetcher(list);
    Paging.RequestedChain(fetch, 0, budget);
    var r := Paging.Requested(fetch, 0, budget);
    forall i | 0 <= i < |r| - 1
      ensures list(r[i]).Success? && list(r[i]).value.nextPage != 0 && r[i + 1] == list(r[i]).value.nextPage
    {
      assert fetch(r[i]).Success? && fetch(r[i]).value.next == Some(r[i + 1]);
    }
    var last := r[|r| - 1];
    assert fetch(last).Failure? || fetch(last).value.next.None?;
  }

  /** The loop of the syncer's `fetchGitHubStarredRepos`: adds every repository
      of every page, in arrival order, and returns the first error it meets. */
  method FetchGitHubStarredRepos(list: StarsLister, ghost budget: nat)
    returns (r: Result<StarredRepoCollection, string>, requested: seq<nat>)
    requires Paging.Stops(StarsFetcher(list), 0, budget)
    ensures requested == Paging.Requested(StarsFetcher(list), 0, budget)
    ensures r.Success? <==> Paging.Drain(StarsFetcher(list), 0, budget).Success?
    ensures r.Success? ==> r.value.Valid() && r.value.repos == Paging.Drain(StarsFetcher(list), 0, budget).value
    ensures r.Failure? ==> r.error == Paging.Drain(StarsFetcher(list), 0, budget).error
  {
    ghost var fetch := StarsFetcher(list);
    var repos := NewStarredRepoCollection();
    var page: nat := 0;
    ghost var b := budget;
    requested := [];
    Paging.PrependNothing(Paging.Drain(fetch, page, b));
    while true
      invariant Paging.Stops(fetch, page, b)
      invariant Paging.Requested(fetch, 0, budget) == requested + Paging.Requested(fetch, page, b)
      invariant repos.Valid()
      invariant Paging.Drain(fetch, 0, budget) == Paging.Prepend(repos.repos, Paging.Drain(fetch, page, b))
      decreases b
    {
      requested := requested + [page];
      var resp := list(page);
      if resp.Failure? {
        r := Failure(resp.error);
        return;
      }
      ghost var before := repos.repos;
      var i := 0;
      while i < |resp.value.repos|
        invariant 0 <= i <= |resp.value.repos|
        invariant repos.Valid()
        invariant repos.repos == before + resp.value.repos[..i]
      {
        repos := repos.Add(resp.value.repos[i]);
        i := i + 1;
      }
      assert resp.value.repos[..i] == resp.value.repos;
      if resp.value.nextPage == 0 {
        r := Success(repos);
        return;
      }
      Paging.PrependTwice(before, resp.value.repos, Paging.Drain(fetch, resp.value.nextPage, b - 1));
      page := resp.value.nextPage;
      b := b - 1;
    }
  }

  // ---------------------------------------------------------------- Notion

  /** The value of one property of a page, as far as the engine reads it. */
  datatype PropertyValue =
    | TitleValue(plainTexts: seq<string>)
    | NumberValue(number: int)
    | OtherValue(kind: string)

  /** One result of a database query: the page ID and its property values. */
  datatype RawPage = RawPage(id: string, properties: map<string, PropertyValue>)

  /** One response of a database query. */
  datatype QueryResponse = QueryResponse(results: seq<RawPage>, hasMore: bool, nextCursor: string)

  /** The database query by start cursor; the first request uses the empty cursor. */
  type DatabaseQuery = string -> Result<QueryResponse, string>

  /** The names of the title property and of the numeric GitHub-ID property. */
  datatype PageFields = PageFields(title: string, repoID: string)

  datatype PagesError =
    | QueryFailed(message: string)
    | BadField(pageID: string, property: string)

  /** The page holds a title property with at least one text and a number
      property for the GitHub ID. */
  predicate WellShaped(fields: PageFields, raw: RawPage)
  {
    && fields.title in raw.properties
    && raw.properties[fields.title].TitleValue?
    && |raw.properties[fields.title].plainTexts| > 0
    && fields.repoID in raw.properties
    && raw.properties[fields.repoID].NumberValue?
  }

  /** Reads one query result into a page: the ID, the first plain text of the
      title and the GitHub ID. The checks follow the order of the source's
      reads: title type, GitHub-ID type, then the first title text. */
  function DecodePage(fields: PageFields, raw: RawPage): (r: Result<NotionPage, PagesError>)
    ensures r.Success? <==> WellShaped(fields, raw)
    ensures r.Success? ==> r.value == NotionPage(raw.id, raw.properties[fields.title].plainTexts[0],
                                                 raw.properties[fields.repoID].number)
    ensures r.Failure? ==> r.error.BadField? && r.error.pageID == raw.id
    ensures r.Failure? && !(fields.title in raw.properties && raw.properties[fields.title].TitleValue?)
            ==> r.error.property == fields.title
    ensures r.Failure? && fields.title in raw.properties && raw.properties[fields.title].TitleValue?
              && !(fields.repoID in raw.properties && raw.properties[fields.repoID].NumberValue?)
            ==> r.error.property == fields.repoID
    ensures r.Failure? && fields.repoID in raw.properties && raw.properties[fields.repoID].NumberValue?
            ==> r.error.property == fields.title
  {
    if fields.title !in raw.properties || !raw.properties[fields.title].TitleValue? then
      Failure(BadField(raw.id, fields.title))
    else if fields.repoID !in raw.properties || !raw.properties[fields.repoID].NumberValue? then
      Failure(BadField(raw.id, fields.repoID))
    else if |raw.properties[fields.title].plainTexts| == 0 then
      Failure(BadField(raw.id, fields.title))
    else
      Success(NotionPage(raw.id, raw.properties[fields.title].plainTexts[0], raw.properties[fields.repoID].number))
  }

  /** Decodes the results of one response in order, stopping at the first one
      that does not decode. */
  function DecodeAll(fields: PageFields, raws: seq<RawPage>): (r: Result<seq<NotionPage>, PagesError>)
    ensures r.Success? <==> forall i :: 0 <= i < |raws| ==> WellShaped(fields, raws[i])
    ensures r.Success? ==> |r.value| == |raws|
                           && forall i :: 0 <= i < |raws| ==> r.value[i] == DecodePage(fields, raws[i]).value
    ensures r.Failure? ==> exists i :: 0 <= i < |raws| && !WellShaped(fields, raws[i])
                             && (forall j :: 0 <= j < i ==> WellShaped(fields, raws[j]))
                             && r.error == DecodePage(fields, raws[i]).error
    decreases |raws|
  {
    if |raws| == 0 then Success([])
    else
      match DecodePage(fields, raws[0])
      case Failure(e) => Failure(e)
      case Success(p) =>
        var rest := DecodeAll(fields, raws[1..]);
        assert forall i :: 0 < i < |raws| ==> raws[i] == raws[1..][i - 1];
        match rest
        case Failure(e) => Failure(e)
        case Success(ps) => Success([p] + ps)
  }

  /** The query seen as a paginated upstream whose records are decoded pages:
      `HasMore == false` means no further page, a query or decode failure
      ends the drain. */
  function PagesFetcher(query: DatabaseQuery, fields: PageFields): string -> Result<Paging.Batch<string, NotionPage>, PagesError>
  {
    (cursor: string) =>
      match query(cursor)
      case Failure(e) => Failure(QueryFailed(e))
      case Success(resp) =>
        match DecodeAll(fields, resp.results)
        case Failure(e) => Failure(e)
        case Success(ps) => Success(Paging.Batch(ps, if resp.hasMore then Some(resp.nextCursor) else None))
  }

  /** The Notion loop first queries with the empty cursor, stops exactly when a
      response has `HasMore == false` or the page fails, and otherwise
      continues from `NextCursor`. */
  lemma NotionPagination(query: DatabaseQuery, fields: PageFields, budget: nat)
    requires Paging.Stops(PagesFetcher(query, fields), "", budget)
    ensures var r := Paging.Requested(PagesFetcher(query, fields), "", budget);
      && r[0] == ""
      && (forall i :: 0 <= i < |r| - 1 ==>
            && query(r[i]).Success?
            && query(r[i]).value.hasMore
            && r[i + 1] == query(r[i]).value.nextCursor)
      && (|| query(r[|r| - 1]).Failure?
          || !query(r[|r| - 1]).value.hasMore
          || DecodeAll(fields, query(r[|r| - 1]).value.results).Failure?)
  {
    var fetch := PagesFetcher(query, fields);
    Paging.RequestedChain(fetch, "", budget);
    var r := Paging.Requested(fetch, "", budget);
    forall i | 0 <= i < |r| - 1
      ensures query(r[i]).Success? && query(r[i]).value.hasMore && r[i + 1] == query(r[i]).value.nextCursor
    {
      assert fetch(r[i]).Success? && fetch(r[i]).value.next == Some(r[i + 1]);
    }
    var last := r[|r| - 1];
    assert fetch(last).Failure? || fetch(last).value.next.None?;
  }

  /** The loop of the syncer's `getPagesFromNotionDatabase`: adds every page of
      every response, in arrival order, and returns the first error it meets. */
  method GetPagesFromNotionDatabase(query: DatabaseQuery, fields: PageFields, ghost budget: nat)
    returns (r: Result<DatabasePages, PagesError>, cursors: seq<string>)
    requires Paging.Stops(PagesFetcher(query, fields), "", budget)
    ensures cursors == Paging.Requested(PagesFetcher(query, fields), "", budget)
    ensures r.Success? <==> Paging.Drain(PagesFetcher(query, fields), "", budget).Success?
    ensures r.Success? ==> r.value.Valid() && r.value.pages == Paging.Drain(PagesFetcher(query, fields), "", budget).value
    ensures r.Failure? ==> r.error == Paging.Drain(PagesFetcher(query, fields), "", budget).error
  {
    ghost var fetch := PagesFetcher(query, fields);
    var pages := NewDatabasePages();
    var cursor := "";
    ghost var b := budget;
    cursors := [];
    Paging.PrependNothing(Paging.Drain(fetch, cursor, b));
    while true
      invariant Paging.Stops(fetch, cursor, b)
      invariant Paging.Requested(fetch, "", budget) == cursors + Paging.Requested(fetch, cursor, b)
      invariant pages.Valid()
      invariant Paging.Drain(fetch, "", budget) == Paging.Prepend(pages.pages, Paging.Drain(fetch, cursor, b))
      decreases b
    {
      cursors := cursors + [cursor];
      var resp := query(cursor);
      if resp.Failure? {
        r := Failure(QueryFailed(resp.error));
        return;
      }
      ghost var before := pages.pages;
      var added := AddDecoded(pages, fields, resp.value.results);
      if added.Failure? {
        r := Failure(added.error);
        return;
      }
      pages := added.value;
      if !resp.value.hasMore {
        r := Success(pages);
        return;
      }
      Paging.PrependTwice(before, DecodeAll(fields, resp.value.results).value, Paging.Drain(fetch, resp.value.nextCursor, b - 1));
      cursor := resp.value.nextCursor;
      b := b - 1;
    }
  }

  /** The inner loop over one response: decodes each result in order and
      adds it, stopping at the first one that does not decode. */
  method AddDecoded(pages: DatabasePages, fields: PageFields, results: seq<RawPage>)
    returns (r: Result<DatabasePages, PagesError>)
    requires pages.Valid()
    ensures r.Success? <==> DecodeAll(fields, results).Success?
    ensures r.Success? ==> r.value.Valid() && r.value.pages == pages.pages + DecodeAll(fields, results).value
    ensures r.Failure? ==> r.error == DecodeAll(fields, results).error
  {
    var acc := pages;
    var i := 0;
    while i < |results|
      invariant 0 <= i <= |results|
      invariant acc.Valid()
      invariant forall j :: 0 <= j < i ==> WellShaped(fields, results[j])
      invariant |acc.pages| == |pages.pages| + i
      invariant acc.pages[..|pages.pages|] == pages.pages
      invariant forall j :: 0 <= j < i ==> acc.pages[|pages.pages| + j] == DecodePage(fields, results[j]).value
    {
      var page := DecodePage(fields, results[i]);
      if page.Failure? {
        r := Failure(page.error);
        return;
      }
      acc := acc.Add(page.value);
      i := i + 1;
    }
    r := Success(acc);
  }
}

=== FILE: paging.dfy ===
/** Draining a paginated upstream. Both ingestion loops of the engine have the
    same shape: request a page at a cursor, keep its records, and either stop
    (the upstream says there is no further page, or the request failed) or
    request the next page at the cursor the response names. Here the upstream
    is a function from cursor to response, and `budget` bounds the number of
    requests so that the loop is known to end. */
module Paging {
  import opened Wrappers

  /** The records of one page and the cursor of the next page, if any. */
  datatype Batch<C, T> = Batch(items: seq<T>, next: Option<C>)

  /** Requests from `start` on reach a last page, or a failing request,
      within `budget` requests. */
  predicate Stops<C, T, E>(fetch: C -> Result<Batch<C, T>, E>, start: C, budget: nat)
    decreases budget
  {
    && budget > 0
    && match fetch(start)
       case Failure(_) => true
       case Success(b) => b.next.None? || Stops(fetch, b.next.value, budget - 1)
  }

  /** The cursors requested, in order, by the loop that starts at `start`. */
  function Requested<C, T, E>(fetch: C -> Result<Batch<C, T>, E>, start: C, budget: nat): (r: seq<C>)
    requires Stops(fetch, start, budget)
    ensures |r| >= 1 && r[0] == start
    decreases budget
  {
    match fetch(start)
    case Failure(_) => [start]
    case Success(b) =>
      if b.next.None? then [start] else [start] + Requested(fetch, b.next.value, budget - 1)
  }

  /** `items` in front of a successful drain's records; a failure is kept. */
  function Prepend<T, E>(items: seq<T>, r: Result<seq<T>, E>): Result<seq<T>, E>
  {
    match r
    case Success(rest) => Success(items + rest)
    case Failure(e) => Failure(e)
  }

  /** What the loop that starts at `start` returns: every record of every
      page, or the error of the request that failed. */
  function Drain<C, T, E>(fetch: C -> Result<Batch<C, T>, E>, start: C, budget: nat): Result<seq<T>, E>
    requires Stops(fetch, start, budget)
    decreases budget
  {
    match fetch(start)
    case Failure(e) => Failure(e)
    case Success(b) =>
      if b.next.None? then Success(b.items) else Prepend(b.items, Drain(fetch, b.next.value, budget - 1))
  }

  /** Prepending nothing changes nothing. */
  lemma PrependNothing<T, E>(r: Result<seq<T>, E>)
    ensures Prepend([], r) == r
  {
    if r.Success? {
      assert [] + r.value == r.value;
    }
  }

  /** Prepending twice is prepending the concatenation. */
  lemma PrependTwice<T, E>(a: seq<T>, b: seq<T>, r: Result<seq<T>, E>)
    ensures Prepend(a, Prepend(b, r)) == Prepend(a + b, r)
  {
    if r.Success? {
      assert a + (b + r.value) == (a + b) + r.value;
    }
  }

  /** The records of the successful pages among those at `cursors`, page by
      page in cursor order. */
  function Collected<C, T, E>(fetch: C -> Result<Batch<C, T>, E>, cursors: seq<C>): seq<T>
    decreases |cursors|
  {
    if |cursors| == 0 then []
    else
      (match fetch(cursors[0]) case Success(b) => b.items case Failure(_) => [])
      + Collected(fetch, cursors[1..])
  }

  /** Each request but the last succeeded and named the cursor requested
      next; the last request failed or named no next page. */
  lemma {:induction false} RequestedChain<C, T, E>(fetch: C -> Result<Batch<C, T>, E>, start: C, budget: nat)
    requires Stops(fetch, start, budget)
    ensures var r := Requested(fetch, start, budget);
      && (forall i :: 0 <= i < |r| - 1 ==> fetch(r[i]).Success? && fetch(r[i]).value.next == Some(r[i + 1]))
      && (fetch(r[|r| - 1]).Failure? || fetch(r[|r| - 1]).value.next.None?)
    decreases budget
  {
    match fetch(start)
    case Failure(_) =>
    case Success(b) =>
      if b.next.Some? {
        RequestedChain(fetch, b.next.value, budget - 1);
        var rest := Requested(fetch, b.next.value, budget - 1);
        assert Requested(fetch, start, budget) == [start] + rest;
      }
  }

  /** The drain succeeds iff every request it made succeeded; it then holds
      every record of every page in arrival order, and otherwise the error
      of its last request. */
  lemma {:induction false} DrainCollects<C, T, E>(fetch: C -> Result<Batch<C, T>, E>, start: C, budget: nat)
    requires Stops(fetch, start, budget)
    ensures var r := Requested(fetch, start, budget);
      var d := Drain(fetch, start, budget);
      && (d.Success? <==> forall i :: 0 <= i < |r| ==> fetch(r[i]).Success?)
      && (d.Success? ==> d.value == Collected(fetch, r))
      && (d.Failure? ==> fetch(r[|r| - 1]).Failure? && d.error == fetch(r[|r| - 1]).error)
    decreases budget
  {
    var r := Requested(fetch, start, budget);
    match fetch(start)
    case Failure(_) =>
      FirstRequestFails(fetch, start, budget);
    case Success(b) =>
      if b.next.None? {
        assert Collected(fetch, r) == b.items + Collected(fetch, r[1..]);
      } else {
        DrainCollects(fetch, b.next.value, budget - 1);
        var rest := Requested(fetch, b.next.value, budget - 1);
        assert r == [start] + rest;
        assert r[1..] == rest;
        assert forall i :: 0 < i < |r| ==> r[i] == rest[i - 1];
      }
  }

  /** When the first request fails, not every request succeeded. */
  lemma FirstRequestFails<C, T, E>(fetch: C -> Result<Batch<C, T>, E>, start: C, budget: nat)
    requires Stops(fetch, start, budget) && fetch(start).Failure?
    ensures !(forall i :: 0 <= i < |Requested(fetch, start, budget)| ==> fetch(Requested(fetch, start, budget)[i]).Success?)
  {
    assert Requested(fetch, start, budget)[0] == start;
  }

  /** The budget only witnesses termination: any two sufficient budgets give
      the same requests and the same result. */
  lemma {:induction false} BudgetIrrelevant<C, T, E>(fetch: C -> Result<Batch<C, T>, E>, start: C, b1: nat, b2: nat)
    requires Stops(fetch, start, b1) && Stops(fetch, start, b2)
    ensures Requested(fetch, start, b1) == Requested(fetch, start, b2)
    ensures Drain(fetch, start, b1) == Drain(fetch, start, b2)
    decreases b1
  {
    match fetch(start)
    case Failure(_) =>
    case Success(b) =>
      if b.next.Some? {
        BudgetIrrelevant(fetch, b.next.value, b1 - 1, b2 - 1);
      }
  }
}

=== FILE: reconcile.dfy ===
/** The set difference at the start of `doSync`: which starred repositories
    need a page, and which pages stand for repositories no longer starred. */
module Reconcile {
  import opened Collections
  import opened Sequences

  /** The starred repositories that have no page, in starring order. */
  function PagesToCreate(repos: seq<StarredRepo>, pages: DatabasePages): (r: seq<StarredRepo>)
    ensures forall x :: x in r <==> x in repos && !pages.ContainsRepo(x.id)
    ensures forall x {:trigger multiset(r)[x]} :: multiset(r)[x] == if pages.ContainsRepo(x.id) then 0 else multiset(repos)[x]
    ensures |r| <= |repos|
    decreases |repos|
  {
    if |repos| == 0 then []
    else
      var rest := PagesToCreate(repos[1..], pages);
      assert forall x :: x in repos <==> x == repos[0] || x in repos[1..];
      MultisetCons(repos);
      if pages.ContainsRepo(repos[0].id) then rest
      else
        MultisetCons([repos[0]] + rest);
        assert ([repos[0]] + rest)[1..] == rest;
        [repos[0]] + rest
  }

  /** The pages whose repository is no longer starred, in page order. */
  function PagesToDelete(pages: seq<NotionPage>, stars: StarredRepoCollection): (r: seq<NotionPage>)
    ensures forall x :: x in r <==> x in pages && !stars.Contains(x.gitHubID)
    ensures forall x {:trigger multiset(r)[x]} :: multiset(r)[x] == if stars.Contains(x.gitHubID) then 0 else multiset(pages)[x]
    ensures |r| <= |pages|
    decreases |pages|
  {
    if |pages| == 0 then []
    else
      var rest := PagesToDelete(pages[1..], stars);
      assert forall x :: x in pages <==> x == pages[0] || x in pages[1..];
      MultisetCons(pages);
      if stars.Contains(pages[0].gitHubID) then rest
      else
        MultisetCons([pages[0]] + rest);
        assert ([pages[0]] + rest)[1..] == rest;
        [pages[0]] + rest
  }

  /** The creation plan keeps the starring order. */
  lemma {:induction false} PagesToCreateKeepsOrder(repos: seq<StarredRepo>, pages: DatabasePages)
    ensures IsSubsequence(PagesToCreate(repos, pages), repos)
    decreases |repos|
  {
    if |repos| > 0 {
      PagesToCreateKeepsOrder(repos[1..], pages);
      var rest := PagesToCreate(repos[1..], pages);
      if pages.ContainsRepo(repos[0].id) {
        SubsequenceOfTail(rest, repos);
      } else {
        assert ([repos[0]] + rest)[1..] == rest;
      }
    }
  }

  /** The deletion plan keeps the page order. */
  lemma {:induction false} PagesToDeleteKeepsOrder(pages: seq<NotionPage>, stars: StarredRepoCollection)
    ensures IsSubsequence(PagesToDelete(pages, stars), pages)
    decreases |pages|
  {
    if |pages| > 0 {
      PagesToDeleteKeepsOrder(pages[1..], stars);
      var rest := PagesToDelete(pages[1..], stars);
      if stars.Contains(pages[0].gitHubID) {
        SubsequenceOfTail(rest, pages);
      } else {
        assert ([pages[0]] + rest)[1..] == rest;
      }
    }
  }

  /** No two repositories share a GitHub ID. */
  ghost predicate UniqueIDs(repos: seq<StarredRepo>)
  {
    forall i, j :: 0 <= i < j < |repos| ==> repos[i].id != repos[j].id
  }

  /** The IDs of a non-empty sequence: its head's and its tail's. */
  lemma RepoIDsCons(repos: seq<StarredRepo>)
    requires |repos| > 0
    ensures RepoIDs(repos) == {repos[0].id} + RepoIDs(repos[1..])
  {
    assert forall r :: r in repos <==> r == repos[0] || r in repos[1..];
  }

  lemma PageRepoIDsCons(pages: seq<NotionPage>)
    requires |pages| > 0
    ensures PageRepoIDs(pages) == {pages[0].gitHubID} + PageRepoIDs(pages[1..])
  {
    assert forall p :: p in pages <==> p == pages[0] || p in pages[1..];
  }

  /** Adding a fresh element to one side of an intersection grows it by one
      when the element is on the other side, and not at all otherwise. */
  lemma IntersectCons(x: int, xs: set<int>, ys: set<int>)
    requires x !in xs
    ensures x in ys ==> |({x} + xs) * ys| == |xs * ys| + 1
    ensures x !in ys ==> |({x} + xs) * ys| == |xs * ys|
  {
    if x in ys {
      assert ({x} + xs) * ys == {x} + (xs * ys);
    } else {
      assert ({x} + xs) * ys == xs * ys;
    }
  }

  /** With distinct IDs, every starred repository is either planned for
      creation or already has a page: |toCreate| + |S ∩ R| = |S|. */
  lemma {:induction false} CreateCount(repos: seq<StarredRepo>, pages: DatabasePages)
    requires UniqueIDs(repos)
    ensures |PagesToCreate(repos, pages)| + |RepoIDs(repos) * pages.ids| == |repos|
    decreases |repos|
  {
    if |repos| > 0 {
      var tail := repos[1..];
      assert UniqueIDs(tail) by {
        forall i, j | 0 <= i < j < |tail| ensures tail[i].id != tail[j].id {
          assert tail[i] == repos[i + 1] && tail[j] == repos[j + 1];
        }
      }
      CreateCount(tail, pages);
      RepoIDsCons(repos);
      assert repos[0].id !in RepoIDs(tail);
      IntersectCons(repos[0].id, RepoIDs(tail), pages.ids);
    }
  }

  /** With distinct GitHub IDs among the pages, every page is either planned
      for deletion or stands for a starred repository: |toDelete| + |S ∩ R| = |R|. */
  lemma {:induction false} DeleteCount(pages: seq<NotionPage>, stars: StarredRepoCollection)
    requires forall i, j :: 0 <= i < j < |pages| ==> pages[i].gitHubID != pages[j].gitHubID
    ensures |PagesToDelete(pages, stars)| + |PageRepoIDs(pages) * stars.ids| == |pages|
    decreases |pages|
  {
    if |pages| > 0 {
      var tail := pages[1..];
      assert forall i, j :: 0 <= i < j < |tail| ==> tail[i].gitHubID != tail[j].gitHubID by {
        forall i, j | 0 <= i < j < |tail| ensures tail[i].gitHubID != tail[j].gitHubID {
          assert tail[i] == pages[i + 1] && tail[j] == pages[j + 1];
        }
      }
      DeleteCount(tail, stars);
      PageRepoIDsCons(pages);
      assert pages[0].gitHubID !in PageRepoIDs(tail);
      IntersectCons(pages[0].gitHubID, PageRepoIDs(tail), stars.ids);
    }
  }

  /** With nothing starred, every page is planned for deletion. */
  lemma {:induction false} NothingStarred(pages: seq<NotionPage>, stars: StarredRepoCollection)
    requires stars.Valid() && |stars.repos| == 0
    ensures PagesToDelete(pages, stars) == pages
    decreases |pages|
  {
    if |pages| > 0 {
      NothingStarred(pages[1..], stars);
      assert [pages[0]] + pages[1..] == pages;
    }
  }

  /** With no pages in the database, every starred repository is planned for creation. */
  lemma {:induction false} NothingInDatabase(repos: seq<StarredRepo>, pages: DatabasePages)
    requires pages.Valid() && |pages.pages| == 0
    ensures PagesToCreate(repos, pages) == repos
    decreases |repos|
  {
    if |repos| > 0 {
      NothingInDatabase(repos[1..], pages);
      assert [repos[0]] + repos[1..] == repos;
    }
  }

  /** Boundary cases: no stars deletes every page and creates nothing; no
      pages creates every repository and deletes nothing; the same ID sets
      on both sides plan nothing. */
  lemma PlanBoundaries(stars: StarredRepoCollection, pages: DatabasePages)
    requires stars.Valid() && pages.Valid()
    ensures |stars.repos| == 0 ==> PagesToDelete(pages.pages, stars) == pages.pages && PagesToCreate(stars.repos, pages) == []
    ensures |pages.pages| == 0 ==> PagesToCreate(stars.repos, pages) == stars.repos && PagesToDelete(pages.pages, stars) == []
    ensures stars.ids == pages.ids ==> PagesToCreate(stars.repos, pages) == [] && PagesToDelete(pages.pages, stars) == []
  {
    if |stars.repos| == 0 {
      NothingStarred(pages.pages, stars);
    }
    if |pages.pages| == 0 {
      NothingInDatabase(stars.repos, pages);
    }
    if stars.ids == pages.ids {
      SameIDsPlanNothing(stars, pages);
    }
  }

  /** When every starred repository already has a page, nothing is created. */
  lemma {:induction false} AllCovered(repos: seq<StarredRepo>, pages: DatabasePages)
    requires forall i :: 0 <= i < |repos| ==> repos[i].id in pages.ids
    ensures PagesToCreate(repos, pages) == []
    decreases |repos|
  {
    if |repos| > 0 {
      AllCovered(repos[1..], pages);
    }
  }

  /** When every page stands for a starred repository, nothing is deleted. */
  lemma {:induction false} AllStarred(pages: seq<NotionPage>, stars: StarredRepoCollection)
    requires forall i :: 0 <= i < |pages| ==> pages[i].gitHubID in stars.ids
    ensures PagesToDelete(pages, stars) == []
    decreases |pages|
  {
    if |pages| > 0 {
      AllStarred(pages[1..], stars);
    }
  }

  /** After every planned create and archive succeeds, the GitHub IDs left in
      the database (pages not archived plus the created ones) are exactly the
      starred IDs; so a second reconciliation, with nothing changed upstream,
      plans nothing. */
  lemma ApplyConverges(stars: StarredRepoCollection, pages: DatabasePages, next: DatabasePages)
    requires stars.Valid() && pages.Valid() && next.Valid()
    requires next.ids == (set p | p in pages.pages && p !in PagesToDelete(pages.pages, stars) :: p.gitHubID)
                         + RepoIDs(PagesToCreate(stars.repos, pages))
    ensures next.ids == stars.ids
    ensures PagesToCreate(stars.repos, next) == [] && PagesToDelete(next.pages, stars) == []
  {
    KeptIDs(stars, pages);
    CreatedIDs(stars, pages);
    assert next.ids == stars.ids;
    SameIDsPlanNothing(stars, next);
  }

  /** The same ID sets on both sides plan nothing. */
  lemma SameIDsPlanNothing(stars: StarredRepoCollection, pages: DatabasePages)
    requires stars.Valid() && pages.Valid() && stars.ids == pages.ids
    ensures PagesToCreate(stars.repos, pages) == [] && PagesToDelete(pages.pages, stars) == []
  {
    assert forall i :: 0 <= i < |stars.repos| ==> stars.repos[i] in stars.repos;
    AllCovered(stars.repos, pages);
    assert forall i :: 0 <= i < |pages.pages| ==> pages.pages[i] in pages.pages;
    AllStarred(pages.pages, stars);
  }

  /** The pages not planned for deletion are those of starred repositories. */
  lemma KeptIDs(stars: StarredRepoCollection, pages: DatabasePages)
    requires stars.Valid() && pages.Valid()
    ensures (set p | p in pages.pages && p !in PagesToDelete(pages.pages, stars) :: p.gitHubID) == pages.ids * stars.ids
  {
  }

  /** The repositories planned for creation are the starred ones without a page. */
  lemma CreatedIDs(stars: StarredRepoCollection, pages: DatabasePages)
    requires stars.Valid() && pages.Valid()
    ensures RepoIDs(PagesToCreate(stars.repos, pages)) == stars.ids - pages.ids
  {
    forall id | id in stars.ids - pages.ids
      ensures id in RepoIDs(PagesToCreate(stars.repos, pages))
    {
      var r :| r in stars.repos && r.id == id;
      assert r in PagesToCreate(stars.repos, pages);
    }
  }
}

=== FILE: report.dfy ===
/** The notification text `doSync` sends after a run: a fixed header, four
    count lines, then up to four titled blocks, each present only when it
    has something to list. */
module Report {
  import opened Collections
  import opened Text

  /** What one run reports. The two plans are the planned creates and
      deletes, whether or not they later succeeded. */
  datatype NotificationContent = NotificationContent(
    starredReposNum: nat,
    notionPagesNum: nat,
    pagesToCreate: seq<StarredRepo>,
    pagesToDelete: seq<NotionPage>,
    createFailed: seq<string>,
    deleteFailed: seq<string>)

  const Header := "Github Stars Synced"
  const StarsLabel := "Github Stars Num: "
  const PagesLabel := "Notion Pages Num: "
  const CreateLabel := "Create Num: "
  const DeleteLabel := "Delete Num: "
  const CreatedTitle := "Created: "
  const DeletedTitle := "Deleted: "
  const CreateFailedTitle := "Create Failed: "
  const DeleteFailedTitle := "Delete Failed: "

  /** Each line followed by a newline. */
  function Lines(ls: seq<string>): string
    decreases |ls|
  {
    if |ls| == 0 then "" else ls[0] + "\n" + Lines(ls[1..])
  }

  function Names(repos: seq<StarredRepo>): (r: seq<string>)
    ensures |r| == |repos| && forall i :: 0 <= i < |repos| ==> r[i] == repos[i].name
  {
    seq(|repos|, i requires 0 <= i < |repos| => repos[i].name)
  }

  function Titles(pages: seq<NotionPage>): (r: seq<string>)
    ensures |r| == |pages| && forall i :: 0 <= i < |pages| ==> r[i] == pages[i].title
  {
    seq(|pages|, i requires 0 <= i < |pages| => pages[i].title)
  }

  /** A titled block as the source writes it: the title line, one line per
      item and a blank line, or nothing when there are no items. */
  function Block(title: string, items: seq<string>): string
  {
    if |items| == 0 then "" else title + "\n" + Lines(items) + "\n"
  }

  /** The header, a blank line and the four count lines. */
  function Preamble(c: NotificationContent): string
  {
    Header + "\n\n"
    + StarsLabel + NatToString(c.starredReposNum) + "\n"
    + PagesLabel + NatToString(c.notionPagesNum) + "\n"
    + CreateLabel + NatToString(|c.pagesToCreate|) + "\n"
    + DeleteLabel + NatToString(|c.pagesToDelete|) + "\n"
  }

  /** The source's `genNotificationMessage`: every line of the report, each
      ended by a newline. `ReportAsWritten` shows this is the text the source
      builds piece by piece. */
  function GenNotificationMessage(c: NotificationContent): string
  {
    Lines(ReportLines(c))
  }

  // ------------------------------------------------------------ line layout

  /** The lines of a section: none when empty, otherwise the title, the items
      and a blank line. */
  function Section(title: string, items: seq<string>): seq<string>
  {
    if |items| == 0 then [] else [title] + items + [""]
  }

  /** The four lines that every report starts with after the header. */
  function CountLines(c: NotificationContent): seq<string>
  {
    [ StarsLabel + NatToString(c.starredReposNum),
      PagesLabel + NatToString(c.notionPagesNum),
      CreateLabel + NatToString(|c.pagesToCreate|),
      DeleteLabel + NatToString(|c.pagesToDelete|) ]
  }

  /** The report line by line: header, blank line, counts, then the sections
      in the order Created, Deleted, Create Failed, Delete Failed. */
  function ReportLines(c: NotificationContent): seq<string>
  {
    [Header, ""] + CountLines(c)
    + Section(CreatedTitle, Names(c.pagesToCreate))
    + Section(DeletedTitle, Titles(c.pagesToDelete))
    + Section(CreateFailedTitle, c.createFailed)
    + Section(DeleteFailedTitle, c.deleteFailed)
  }

  lemma {:induction false} LinesAppend(a: seq<string>, b: seq<string>)
    ensures Lines(a + b) == Lines(a) + Lines(b)
    decreases |a|
  {
    if |a| > 0 {
      LinesAppend(a[1..], b);
      assert (a + b)[1..] == a[1..] + b;
    } else {
      assert a + b == b;
    }
  }

  lemma BlockIsSection(title: string, items: seq<string>)
    ensures Block(title, items) == Lines(Section(title, items))
  {
    if |items| > 0 {
      LinesAppend([title] + items, [""]);
      LinesAppend([title], items);
      assert Lines([""]) == "\n";
      assert Lines([title]) == title + "\n";
    }
  }

  lemma SixLines(x0: string, x1: string, x2: string, x3: string, x4: string, x5: string)
    ensures Lines([x0, x1, x2, x3, x4, x5])
            == x0 + "\n" + x1 + "\n" + x2 + "\n" + x3 + "\n" + x4 + "\n" + x5 + "\n"
  {
    var f := [x0, x1, x2, x3, x4, x5];
    assert Lines(f[6..]) == "";
    assert Lines(f[5..]) == x5 + "\n" + Lines(f[6..]);
    assert Lines(f[4..]) == x4 + "\n" + Lines(f[5..]);
    assert Lines(f[3..]) == x3 + "\n" + Lines(f[4..]);
    assert Lines(f[2..]) == x2 + "\n" + Lines(f[3..]);
    assert Lines(f[1..]) == x1 + "\n" + Lines(f[2..]);
  }

  lemma PreambleAsLines(c: NotificationContent)
    ensures Lines([Header, ""] + CountLines(c)) == Preamble(c)
  {
    var counts := CountLines(c);
    assert [Header, ""] + counts == [Header, "", counts[0], counts[1], counts[2], counts[3]];
    SixLines(Header, "", counts[0], counts[1], counts[2], counts[3]);
  }

  /** The message is the header and counts followed by the four blocks, each
      written only when it lists something. */
  lemma ReportAsWritten(c: NotificationContent)
    ensures GenNotificationMessage(c) ==
      Preamble(c)
      + Block(CreatedTitle, Names(c.pagesToCreate))
      + Block(DeletedTitle, Titles(c.pagesToDelete))
      + Block(CreateFailedTitle, c.createFailed)
      + Block(DeleteFailedTitle, c.deleteFailed)
  {
    var s1 := Section(CreatedTitle, Names(c.pagesToCreate));
    var s2 := Section(DeletedTitle, Titles(c.pagesToDelete));
    var s3 := Section(CreateFailedTitle, c.createFailed);
    var s4 := Section(DeleteFailedTitle, c.deleteFailed);
    var fixed := [Header, ""] + CountLines(c);
    PreambleAsLines(c);
    BlockIsSection(CreatedTitle, Names(c.pagesToCreate));
    BlockIsSection(DeletedTitle, Titles(c.pagesToDelete));
    BlockIsSection(CreateFailedTitle, c.createFailed);
    BlockIsSection(DeleteFailedTitle, c.deleteFailed);
    LinesAppend(fixed, s1);
    LinesAppend(fixed + s1, s2);
    LinesAppend(fixed + s1 + s2, s3);
    LinesAppend(fixed + s1 + s2 + s3, s4);
  }

  // ------------------------------------------------------- reading it back

  /** No listed name, title or failure line contains a newline. */
  ghost predicate SingleLineItems(c: NotificationContent)
  {
    && (forall i :: 0 <= i < |c.pagesToCreate| ==> '\n' !in c.pagesToCreate[i].name)
    && (forall i :: 0 <= i < |c.pagesToDelete| ==> '\n' !in c.pagesToDelete[i].title)
    && (forall i :: 0 <= i < |c.createFailed| ==> '\n' !in c.createFailed[i])
    && (forall i :: 0 <= i < |c.deleteFailed| ==> '\n' !in c.deleteFailed[i])
  }

  lemma {:induction false} LinesAsJoin(ls: seq<string>)
    ensures Lines(ls) == Join(ls + [""], '\n')
    decreases |ls|
  {
    if |ls| > 0 {
      LinesAsJoin(ls[1..]);
      assert (ls + [""])[1..] == ls[1..] + [""];
    }
  }

  lemma NoNewlineInCount(prefix: string, n: nat)
    requires '\n' !in prefix
    ensures '\n' !in prefix + NatToString(n)
  {
  }

  /** When no item spans several lines, splitting the message at newlines
      gives back exactly the report's lines (and the empty text after the
      final newline). */
  lemma ReportRoundTrip(c: NotificationContent)
    requires SingleLineItems(c)
    ensures Split(GenNotificationMessage(c), '\n') == ReportLines(c) + [""]
  {
    var ls := ReportLines(c) + [""];
    LinesAsJoin(ReportLines(c));
    NoNewlineInCount(StarsLabel, c.starredReposNum);
    NoNewlineInCount(PagesLabel, c.notionPagesNum);
    NoNewlineInCount(CreateLabel, |c.pagesToCreate|);
    NoNewlineInCount(DeleteLabel, |c.pagesToDelete|);
    assert forall i :: 0 <= i < |ls| ==> '\n' !in ls[i];
    SplitJoin(ls, '\n');
  }

  /** The count lines carry the number of stars, of pages, and of planned
      (not successful) creates and deletes, readable back as numbers. */
  lemma CountsReadBack(c: NotificationContent)
    ensures var ls := ReportLines(c);
      && ls[0] == Header && ls[1] == ""
      && ls[2][..|StarsLabel|] == StarsLabel && ParseNat(ls[2][|StarsLabel|..]) == c.starredReposNum
      && ls[3][..|PagesLabel|] == PagesLabel && ParseNat(ls[3][|PagesLabel|..]) == c.notionPagesNum
      && ls[4][..|CreateLabel|] == CreateLabel && ParseNat(ls[4][|CreateLabel|..]) == |c.pagesToCreate|
      && ls[5][..|DeleteLabel|] == DeleteLabel && ParseNat(ls[5][|DeleteLabel|..]) == |c.pagesToDelete|
  {
    var ls := ReportLines(c);
    assert ls[2] == StarsLabel + NatToString(c.starredReposNum);
    assert ls[2][|StarsLabel|..] == NatToString(c.starredReposNum);
    ParseNatToString(c.starredReposNum);
    assert ls[3][|PagesLabel|..] == NatToString(c.notionPagesNum);
    ParseNatToString(c.notionPagesNum);
    assert ls[4][|CreateLabel|..] == NatToString(|c.pagesToCreate|);
    ParseNatToString(|c.pagesToCreate|);
    assert ls[5][|DeleteLabel|..] == NatToString(|c.pagesToDelete|);
    ParseNatToString(|c.pagesToDelete|);
  }

  /** No listed item reads as one of the section titles. */
  ghost predicate NoTitleClash(c: NotificationContent)
  {
    var titles := {CreatedTitle, DeletedTitle, CreateFailedTitle, DeleteFailedTitle};
    && (forall i :: 0 <= i < |c.pagesToCreate| ==> c.pagesToCreate[i].name !in titles)
    && (forall i :: 0 <= i < |c.pagesToDelete| ==> c.pagesToDelete[i].title !in titles)
    && (forall i :: 0 <= i < |c.createFailed| ==> c.createFailed[i] !in titles)
    && (forall i :: 0 <= i < |c.deleteFailed| ==> c.deleteFailed[i] !in titles)
  }

  /** A line starting with `prefix` is not the section title `t` when they
      differ at some position both have. */
  lemma LabelIsNotTitle(prefix: string, digits: string, t: string, k: nat)
    requires k < |prefix| && k < |t| && prefix[k] != t[k]
    ensures prefix + digits != t
  {
    assert (prefix + digits)[k] == prefix[k];
  }

  /** Each section title appears among the report's lines exactly when its
      section has something to list. */
  lemma SectionsPresentIffNonEmpty(c: NotificationContent)
    requires NoTitleClash(c)
    ensures CreatedTitle in ReportLines(c) <==> |c.pagesToCreate| > 0
    ensures DeletedTitle in ReportLines(c) <==> |c.pagesToDelete| > 0
    ensures CreateFailedTitle in ReportLines(c) <==> |c.createFailed| > 0
    ensures DeleteFailedTitle in ReportLines(c) <==> |c.deleteFailed| > 0
  {
    var titles := {CreatedTitle, DeletedTitle, CreateFailedTitle, DeleteFailedTitle};
    var counts := CountLines(c);
    forall t | t in titles
      ensures t !in [Header, ""] + counts
    {
      LabelIsNotTitle(StarsLabel, NatToString(c.starredReposNum), t, 0);
      LabelIsNotTitle(PagesLabel, NatToString(c.notionPagesNum), t, 0);
      if t == CreatedTitle || t == DeletedTitle {
        LabelIsNotTitle(CreateLabel, NatToString(|c.pagesToCreate|), t, 6);
        LabelIsNotTitle(DeleteLabel, NatToString(|c.pagesToDelete|), t, 6);
      } else {
        LabelIsNotTitle(CreateLabel, NatToString(|c.pagesToCreate|), t, 7);
        LabelIsNotTitle(DeleteLabel, NatToString(|c.pagesToDelete|), t, 7);
      }
    }
    var names := Names(c.pagesToCreate);
    var pageTitles := Titles(c.pagesToDelete);
    assert forall t :: t in titles ==> t !in names && t !in pageTitles && t !in c.createFailed && t !in c.deleteFailed;
  }
}

=== FILE: schema.dfy ===
/** The gate run before any page is read: the Notion database must declare
    every property the engine reads, each with the expected type. */
module Schema {
  import opened Wrappers

  /** A Notion property type, by its API name ("title", "number", ...). */
  type PropertyType = string

  /** A property the engine needs, and the type it must have. */
  datatype RequiredProperty = RequiredProperty(name: string, kind: PropertyType)

  /** What the database description tells the engine: each declared
      property's name and type. */
  datatype Database = Database(properties: map<string, PropertyType>)

  datatype SchemaError =
    | MissingProperty(name: string)
    | WrongType(name: string, actual: PropertyType, expected: PropertyType)
  {
    function Message(): string
    {
      match this
      case MissingProperty(name) =>
        "notion database is missing required property " + name
      case WrongType(name, actual, expected) =>
        "notion database property " + name + " is of type " + actual + ", but should be " + expected
    }
  }

  /** The database declares `p` with the type `p` asks for. */
  predicate Satisfies(properties: map<string, PropertyType>, p: RequiredProperty)
  {
    p.name in properties && properties[p.name] == p.kind
  }

  /** Checks the required properties in list order and reports the first one
      that fails; a missing property is reported as missing, never as
      mistyped. */
  function ValidateDatabaseFields(required: seq<RequiredProperty>, db: Database): (r: Outcome<SchemaError>)
    ensures r.Pass? <==> forall i :: 0 <= i < |required| ==> Satisfies(db.properties, required[i])
    ensures r.Fail? ==> exists i :: 0 <= i < |required| && FirstFailure(required, db, i) && ReportsFailureOf(r.error, required[i], db)
    decreases |required|
  {
    if |required| == 0 then Pass
    else
      var p := required[0];
      if p.name !in db.properties then
        assert FirstFailure(required, db, 0);
        Fail(MissingProperty(p.name))
      else if db.properties[p.name] != p.kind then
        assert FirstFailure(required, db, 0);
        Fail(WrongType(p.name, db.properties[p.name], p.kind))
      else
        var r := ValidateDatabaseFields(required[1..], db);
        assert forall i :: 0 <= i < |required| - 1 && FirstFailure(required[1..], db, i) ==> FirstFailure(required, db, i + 1);
        r
  }

  /** `required[i]` is the first required property the database fails. */
  ghost predicate FirstFailure(required: seq<RequiredProperty>, db: Database, i: int)
    requires 0 <= i < |required|
  {
    && !Satisfies(db.properties, required[i])
    && forall j :: 0 <= j < i ==> Satisfies(db.properties, required[j])
  }

  /** `e` is the error for the failing property `p`: missing when it is not
      declared, otherwise its declared and expected types. */
  ghost predicate ReportsFailureOf(e: SchemaError, p: RequiredProperty, db: Database)
  {
    if p.name !in db.properties then e == MissingProperty(p.name)
    else e == WrongType(p.name, db.properties[p.name], p.kind)
  }
}

=== FILE: sequences.dfy ===
/** Facts about sequences shared by the planning and the apply phase: order
    kept under filtering, and counting occurrences. */
module Sequences {

  /** `a` is `b` with some elements left out, the rest kept in order. */
  predicate IsSubsequence<T(==)>(a: seq<T>, b: seq<T>)
    decreases |b|
  {
    if |a| == 0 then true
    else if |b| == 0 then false
    else if a[0] == b[0] then IsSubsequence(a[1..], b[1..])
    else IsSubsequence(a, b[1..])
  }

  /** A subsequence of the tail is a subsequence of the whole. */
  lemma {:induction false} SubsequenceOfTail<T>(a: seq<T>, b: seq<T>)
    requires |b| > 0 && IsSubsequence(a, b[1..])
    ensures IsSubsequence(a, b)
    decreases |a| + |b|
  {
    if |a| > 0 && a[0] == b[0] {
      // Matching `a[0]` against `b[0]` leaves `a[1..]`, which is a
      // subsequence of `b[1..]` because `a` is.
      SubsequenceDropHead(a, b[1..]);
    }
  }

  /** Dropping the head of a subsequence leaves a subsequence. */
  lemma {:induction false} SubsequenceDropHead<T>(a: seq<T>, b: seq<T>)
    requires |a| > 0 && IsSubsequence(a, b)
    ensures IsSubsequence(a[1..], b)
    decreases |a| + |b|
  {
    assert |b| > 0;
    if a[0] == b[0] {
      if |b[1..]| > 0 {
        SubsequenceOfTail(a[1..], b);
      } else {
        assert |a[1..]| == 0;
      }
    } else {
      SubsequenceDropHead(a, b[1..]);
      SubsequenceOfTail(a[1..], b);
    }
  }

  /** Occurrences in a non-empty sequence are those of its head plus those
      of its tail. */
  lemma MultisetCons<T>(s: seq<T>)
    requires |s| > 0
    ensures multiset(s) == multiset{s[0]} + multiset(s[1..])
  {
    assert s == [s[0]] + s[1..];
  }
}

=== FILE: syncer.dfy ===
/** The syncer: reads the Notion database and the starred repositories,
    plans the difference, applies it one item at a time and reports. The
    GitHub and Notion clients are functions from request to response; a run
    returns the requests it issued, in order, so that what is and is not
    attempted can be stated. */
module Syncer {
  import opened Wrappers
  import opened Collections
  import Schema
  import Paging
  import Ingest
  import Reconcile
  import Apply
  import Report
  import Wechat

  datatype GitHubClient = GitHubClient(listStarred: Ingest.StarsLister)

  /** The Notion operations the syncer uses: describe a database, query it by
      database ID and start cursor, create a page for a repository in a
      database, archive a page by ID. */
  datatype NotionClient = NotionClient(
    getDatabase: string -> Result<Schema.Database, string>,
    query: (string, string) -> Result<Ingest.QueryResponse, string>,
    createPage: (string, StarredRepo) -> Outcome<string>,
    archivePage: string -> Outcome<string>)

  datatype Syncer = Syncer(github: GitHubClient, notion: NotionClient, notifier: Option<Wechat.WechatNotifier>)

  datatype SyncError =
    | NilGithubClient
    | NilNotionClient
    | GetDatabaseFailed(cause: string)
    | ValidationFailed(invalid: Schema.SchemaError)
    | GetPagesFailed(pagesError: Ingest.PagesError)
    | GetStarsFailed(cause: string)
  {
    /** The error text: a wrapped error carries its cause's text verbatim
        at the end, after a prefix naming the stage. */
    function Message(): (m: string)
      ensures (GetDatabaseFailed? || GetStarsFailed?) ==> |m| > |cause| && m[|m| - |cause|..] == cause
      ensures GetPagesFailed? && pagesError.QueryFailed? ==>
                |m| > |pagesError.message| && m[|m| - |pagesError.message|..] == pagesError.message
      ensures ValidationFailed? ==> |m| > |invalid.Message()| && m[|m| - |invalid.Message()|..] == invalid.Message()
    {
      match this
      case NilGithubClient => "github client cannot be nil"
      case NilNotionClient => "notion client cannot be nil"
      case GetDatabaseFailed(cause) => "error getting notion database: " + cause
      case ValidationFailed(invalid) => "error validating notion database: " + invalid.Message()
      case GetPagesFailed(QueryFailed(cause)) => "error getting notion pages: " + cause
      case GetPagesFailed(BadField(pageID, property)) =>
        "error getting notion pages: page " + pageID + " has no readable property " + property
      case GetStarsFailed(cause) => "error getting starred repos: " + cause
    }
  }

  /** A request the syncer issues to GitHub or Notion. */
  datatype Call =
    | GetDatabase(databaseID: string)
    | QueryDatabase(databaseID: string, cursor: string, pageSize: nat)
    | ListStarred(page: nat, perPage: nat)
    | CreatePage(databaseID: string, repo: StarredRepo)
    | ArchivePage(pageID: string)
  {
    /** The stage a request belongs to, in the order the stages run. */
    function Stage(): nat
    {
      match this
      case GetDatabase(_) => 0
      case QueryDatabase(_, _, _) => 1
      case ListStarred(_, _) => 2
      case CreatePage(_, _) => 3
      case ArchivePage(_) => 4
    }

    predicate IsWrite()
    {
      CreatePage? || ArchivePage?
    }
  }

  /** The source's `New`: both clients are required, the GitHub one checked
      first; the notifier may be absent. */
  function New(github: Option<GitHubClient>, notion: Option<NotionClient>, notifier: Option<Wechat.WechatNotifier>)
    : (r: Result<Syncer, SyncError>)
    ensures r.Success? <==> github.Some? && notion.Some?
    ensures github.None? ==> r == Failure(NilGithubClient)
    ensures github.Some? && notion.None? ==> r == Failure(NilNotionClient)
    ensures r.Success? ==> r.value == Syncer(github.value, notion.value, notifier)
  {
    if github.None? then Failure(NilGithubClient)
    else if notion.None? then Failure(NilNotionClient)
    else Success(Syncer(github.value, notion.value, notifier))
  }

  /** The database query of one database, as the paginated upstream the
      Notion loop drains. */
  function PagesFetcher(s: Syncer, databaseID: string, fields: Ingest.PageFields)
    : string -> Result<Paging.Batch<string, NotionPage>, Ingest.PagesError>
  {
    Ingest.PagesFetcher((cursor: string) => s.notion.query(databaseID, cursor), fields)
  }

  function StarsFetcher(s: Syncer): nat -> Result<Paging.Batch<nat, StarredRepo>, string>
  {
    Ingest.StarsFetcher(s.github.listStarred)
  }

  function QueryCalls(databaseID: string, cursors: seq<string>): (r: seq<Call>)
    ensures |r| == |cursors|
    ensures forall i :: 0 <= i < |r| ==> r[i] == QueryDatabase(databaseID, cursors[i], Ingest.NotionPagesPerPage)
  {
    seq(|cursors|, i requires 0 <= i < |cursors| => QueryDatabase(databaseID, cursors[i], Ingest.NotionPagesPerPage))
  }

  function ListCalls(pages: seq<nat>): (r: seq<Call>)
    ensures |r| == |pages|
    ensures forall i :: 0 <= i < |r| ==> r[i] == ListStarred(pages[i], Ingest.GitHubReposPerPage)
  {
    seq(|pages|, i requires 0 <= i < |pages| => ListStarred(pages[i], Ingest.GitHubReposPerPage))
  }

  function CreateCalls(databaseID: string, repos: seq<StarredRepo>): (r: seq<Call>)
    ensures |r| == |repos|
    ensures forall i :: 0 <= i < |r| ==> r[i] == CreatePage(databaseID, repos[i])
  {
    seq(|repos|, i requires 0 <= i < |repos| => CreatePage(databaseID, repos[i]))
  }

  function ArchiveCalls(pages: seq<NotionPage>): (r: seq<Call>)
    ensures |r| == |pages|
    ensures forall i :: 0 <= i < |r| ==> r[i] == ArchivePage(pages[i].id)
  {
    seq(|pages|, i requires 0 <= i < |pages| => ArchivePage(pages[i].id))
  }

  /** The writes `doSync` issues: one create per planned repository, then one
      archive per planned page, each in plan order. */
  function WriteCalls(databaseID: string, toCreate: seq<StarredRepo>, toDelete: seq<NotionPage>): (r: seq<Call>)
    ensures |r| == |toCreate| + |toDelete|
    ensures r[..|toCreate|] == CreateCalls(databaseID, toCreate)
    ensures r[|toCreate|..] == ArchiveCalls(toDelete)
    ensures InStageOrder(r) && StagesWithin(r, 3, 4)
    ensures forall i :: 0 <= i < |r| ==> r[i].IsWrite()
  {
    var creates := CreateCalls(databaseID, toCreate);
    var archives := ArchiveCalls(toDelete);
    OneStageInOrder(creates, 3);
    OneStageInOrder(archives, 4);
    StagesConcat(creates, archives, 3, 3, 4);
    assert (creates + archives)[..|creates|] == creates;
    assert (creates + archives)[|creates|..] == archives;
    creates + archives
  }

  /** Creating the page of a repository in the database, as the create loop
      attempts it. */
  function Creator(s: Syncer, databaseID: string): StarredRepo -> Outcome<string>
  {
    (repo: StarredRepo) => s.notion.createPage(databaseID, repo)
  }

  /** Archiving a page by its ID, as the archive loop attempts it. */
  function Archiver(s: Syncer): NotionPage -> Outcome<string>
  {
    (page: NotionPage) => s.notion.archivePage(page.id)
  }

  /** The report `doSync` builds: the counts, the plan and the failure lines
      of applying the plan with the Notion client. */
  function SyncContent(s: Syncer, databaseID: string, pages: DatabasePages, stars: StarredRepoCollection)
    : (r: Report.NotificationContent)
    ensures r.starredReposNum == |stars.repos| && r.notionPagesNum == |pages.pages|
    ensures forall x :: x in r.pagesToCreate <==> x in stars.repos && !pages.ContainsRepo(x.id)
    ensures forall x :: x in r.pagesToDelete <==> x in pages.pages && !stars.Contains(x.gitHubID)
    ensures |r.createFailed| <= |r.pagesToCreate|
    ensures |r.deleteFailed| <= |r.pagesToDelete|
    ensures r.pagesToCreate == Reconcile.PagesToCreate(stars.repos, pages)
    ensures r.pagesToDelete == Reconcile.PagesToDelete(pages.pages, stars)
    ensures r.createFailed == Apply.ApplyCreates(r.pagesToCreate, Creator(s, databaseID))
    ensures r.deleteFailed == Apply.ApplyDeletes(r.pagesToDelete, Archiver(s))
  {
    var toCreate := Reconcile.PagesToCreate(stars.repos, pages);
    var toDelete := Reconcile.PagesToDelete(pages.pages, stars);
    Report.NotificationContent(
      |stars.repos|, |pages.pages|, toCreate, toDelete,
      Apply.ApplyCreates(toCreate, Creator(s, databaseID)),
      Apply.ApplyDeletes(toDelete, Archiver(s)))
  }

  /** What `doSync` leaves behind: the report it built, the writes it issued
      and the message it handed to the notifier. */
  datatype SyncReport = SyncReport(
    content: Report.NotificationContent,
    calls: seq<Call>,
    notification: Option<Wechat.SendRequest>)

  /** The source's `doSync`: plans the difference, attempts every planned
      create and then every planned archive exactly once, in plan order,
      records each failure as a line, and reports. It has no error result. */
  function DoSync(s: Syncer, databaseID: string, pages: DatabasePages, stars: StarredRepoCollection): (r: SyncReport)
    ensures r.content.starredReposNum == |stars.repos| && r.content.notionPagesNum == |pages.pages|
    ensures forall x :: x in r.content.pagesToCreate <==> x in stars.repos && !pages.ContainsRepo(x.id)
    ensures forall x :: x in r.content.pagesToDelete <==> x in pages.pages && !stars.Contains(x.gitHubID)
    ensures |r.content.createFailed| <= |r.content.pagesToCreate|
    ensures |r.content.deleteFailed| <= |r.content.pagesToDelete|
    ensures r.content.pagesToCreate == Reconcile.PagesToCreate(stars.repos, pages)
    ensures r.content.pagesToDelete == Reconcile.PagesToDelete(pages.pages, stars)
    ensures r.content.createFailed == Apply.ApplyCreates(r.content.pagesToCreate, Creator(s, databaseID))
    ensures r.content.deleteFailed == Apply.ApplyDeletes(r.content.pagesToDelete, Archiver(s))
    ensures |r.calls| == |r.content.pagesToCreate| + |r.content.pagesToDelete|
    ensures r.calls[..|r.content.pagesToCreate|] == CreateCalls(databaseID, r.content.pagesToCreate)
    ensures r.calls[|r.content.pagesToCreate|..] == ArchiveCalls(r.content.pagesToDelete)
    ensures r.notification.Some? <==> s.notifier.Some?
    ensures r.notification.Some? ==> r.notification.value.content == Report.GenNotificationMessage(r.content)
    ensures r.notification == Wechat.SendMsg(s.notifier, Report.GenNotificationMessage(r.content))
    ensures InStageOrder(r.calls) && StagesWithin(r.calls, 3, 4)
    ensures forall i :: 0 <= i < |r.calls| ==> r.calls[i].IsWrite()
  {
    var content := SyncContent(s, databaseID, pages, stars);
    var calls := WriteCalls(databaseID, content.pagesToCreate, content.pagesToDelete);
    var message := Report.GenNotificationMessage(content);
    SyncReport(content, calls, Wechat.SendMsg(s.notifier, message))
  }

  /** A run of `SyncStars`: the requests issued, the error returned, and the
      notification sent. */
  datatype SyncRun = SyncRun(calls: seq<Call>, outcome: Outcome<SyncError>, notification: Option<Wechat.SendRequest>)

  /** The requests are issued stage by stage: database, queries, starred
      listing, creates, archives. */
  predicate InStageOrder(calls: seq<Call>)
    decreases |calls|
  {
    |calls| <= 1 || (calls[0].Stage() <= calls[1].Stage() && InStageOrder(calls[1..]))
  }

  /** In a list in stage order, no request belongs to an earlier stage than
      one issued before it. */
  lemma {:induction false} StageOrderPairwise(calls: seq<Call>)
    requires InStageOrder(calls)
    ensures forall i, j :: 0 <= i < j < |calls| ==> calls[i].Stage() <= calls[j].Stage()
    decreases |calls|
  {
    if |calls| > 1 {
      StageOrderPairwise(calls[1..]);
      forall i, j | 0 <= i < j < |calls|
        ensures calls[i].Stage() <= calls[j].Stage()
      {
        if i > 0 {
          assert calls[i] == calls[1..][i - 1] && calls[j] == calls[1..][j - 1];
        } else if j > 1 {
          assert calls[1] == calls[1..][0] && calls[j] == calls[1..][j - 1];
        }
      }
    }
  }

  /** Requests all of one stage are in stage order. */
  lemma {:induction false} OneStageInOrder(calls: seq<Call>, k: nat)
    requires forall i :: 0 <= i < |calls| ==> calls[i].Stage() == k
    ensures InStageOrder(calls)
    decreases |calls|
  {
    if |calls| > 1 {
      OneStageInOrder(calls[1..], k);
    }
  }

  /** The database is read and satisfies the schema, so the run goes on to
      query its pages. */
  ghost predicate ReachesPages(s: Syncer, databaseID: string, required: seq<Schema.RequiredProperty>)
  {
    && s.notion.getDatabase(databaseID).Success?
    && Schema.ValidateDatabaseFields(required, s.notion.getDatabase(databaseID).value).Pass?
  }

  /** Each pagination loop the run reaches ends within its budget: the
      Notion loop once the schema passes, the GitHub loop once the Notion
      loop has succeeded. A loop the run never reaches is unconstrained. */
  ghost predicate ReachedStagesStop(s: Syncer, databaseID: string, required: seq<Schema.RequiredProperty>,
                                    fields: Ingest.PageFields, pagesBudget: nat, starsBudget: nat)
  {
    ReachesPages(s, databaseID, required) ==>
      && Paging.Stops(PagesFetcher(s, databaseID, fields), "", pagesBudget)
      && (Paging.Drain(PagesFetcher(s, databaseID, fields), "", pagesBudget).Success? ==>
            Paging.Stops(StarsFetcher(s), 0, starsBudget))
  }

  /** The run passes iff the database is read, satisfies the schema, and
      both upstreams are drained without error. */
  ghost predicate StagesSucceed(s: Syncer, databaseID: string, required: seq<Schema.RequiredProperty>,
                                fields: Ingest.PageFields, pagesBudget: nat, starsBudget: nat)
    requires ReachedStagesStop(s, databaseID, required, fields, pagesBudget, starsBudget)
  {
    && ReachesPages(s, databaseID, required)
    && Paging.Drain(PagesFetcher(s, databaseID, fields), "", pagesBudget).Success?
    && Paging.Drain(StarsFetcher(s), 0, starsBudget).Success?
  }

  /** One reading stage: the requests it issued and what it read, or the
      error that ended it. */
  datatype StageRun<T> = StageRun(calls: seq<Call>, result: Result<T, SyncError>)

  /** The Notion stage: query the database page by page until the response
      says there is no more, decoding every page. */
  function ReadPages(s: Syncer, databaseID: string, fields: Ingest.PageFields, pagesBudget: nat)
    : (r: StageRun<seq<NotionPage>>)
    requires Paging.Stops(PagesFetcher(s, databaseID, fields), "", pagesBudget)
    ensures InStageOrder(r.calls) && StagesWithin(r.calls, 1, 1)
    ensures forall i :: 0 <= i < |r.calls| ==> r.calls[i].QueryDatabase? && r.calls[i].databaseID == databaseID
    ensures r.result.Success? <==> Paging.Drain(PagesFetcher(s, databaseID, fields), "", pagesBudget).Success?
    ensures r.result.Success? ==> r.result.value == Paging.Drain(PagesFetcher(s, databaseID, fields), "", pagesBudget).value
    ensures r.result.Failure? ==> r.result.error.GetPagesFailed?
    ensures r.calls == QueryCalls(databaseID, Paging.Requested(PagesFetcher(s, databaseID, fields), "", pagesBudget))
    ensures r.result.Failure? ==>
              r.result.error == GetPagesFailed(Paging.Drain(PagesFetcher(s, databaseID, fields), "", pagesBudget).error)
  {
    var pf := PagesFetcher(s, databaseID, fields);
    var queries := QueryCalls(databaseID, Paging.Requested(pf, "", pagesBudget));
    OneStageInOrder(queries, 1);
    match Paging.Drain(pf, "", pagesBudget)
    case Failure(e) => StageRun(queries, Failure(GetPagesFailed(e)))
    case Success(pages) => StageRun(queries, Success(pages))
  }

  /** The GitHub stage: list the starred repositories page by page until the
      response names no next page. */
  function ReadStars(s: Syncer, starsBudget: nat): (r: StageRun<seq<StarredRepo>>)
    requires Paging.Stops(StarsFetcher(s), 0, starsBudget)
    ensures InStageOrder(r.calls) && StagesWithin(r.calls, 2, 2)
    ensures forall i :: 0 <= i < |r.calls| ==> r.calls[i].ListStarred?
    ensures r.result.Success? <==> Paging.Drain(StarsFetcher(s), 0, starsBudget).Success?
    ensures r.result.Success? ==> r.result.value == Paging.Drain(StarsFetcher(s), 0, starsBudget).value
    ensures r.result.Failure? ==> r.result.error.GetStarsFailed?
    ensures r.calls == ListCalls(Paging.Requested(StarsFetcher(s), 0, starsBudget))
    ensures r.result.Failure? ==> r.result.error == GetStarsFailed(Paging.Drain(StarsFetcher(s), 0, starsBudget).error)
  {
    var sf := StarsFetcher(s);
    var lists := ListCalls(Paging.Requested(sf, 0, starsBudget));
    OneStageInOrder(lists, 2);
    match Paging.Drain(sf, 0, starsBudget)
    case Failure(e) => StageRun(lists, Failure(GetStarsFailed(e)))
    case Success(repos) => StageRun(lists, Success(repos))
  }

  /** The four reading stages of `SyncStars`, in order: get the database,
      check its schema, read its pages, read the starred repositories. The
      first stage that fails ends the run with its error. */
  function ReadStages(s: Syncer, databaseID: string, required: seq<Schema.RequiredProperty>,
                      fields: Ingest.PageFields, pagesBudget: nat, starsBudget: nat)
    : (r: StageRun<(seq<NotionPage>, seq<StarredRepo>)>)
    requires ReachedStagesStop(s, databaseID, required, fields, pagesBudget, starsBudget)
    ensures |r.calls| > 0 && r.calls[0] == GetDatabase(databaseID)
    ensures InStageOrder(r.calls) && StagesWithin(r.calls, 0, 2)
    ensures r.result.Success? <==> StagesSucceed(s, databaseID, required, fields, pagesBudget, starsBudget)
    ensures r.result.Success? ==>
              r.result.value == (Paging.Drain(PagesFetcher(s, databaseID, fields), "", pagesBudget).value,
                                 Paging.Drain(StarsFetcher(s), 0, starsBudget).value)
    ensures r.result.Failure? && (r.result.error.GetDatabaseFailed? || r.result.error.ValidationFailed?)
            ==> r.calls == [GetDatabase(databaseID)]
    ensures r.result.Failure? && r.result.error.GetPagesFailed? ==> StagesWithin(r.calls, 0, 1)
    ensures r.result.Failure? ==> !r.result.error.NilGithubClient? && !r.result.error.NilNotionClient?
    ensures var db := s.notion.getDatabase(databaseID);
            db.Failure? ==> r == StageRun([GetDatabase(databaseID)], Failure(GetDatabaseFailed(db.error)))
    ensures var db := s.notion.getDatabase(databaseID);
            db.Success? && Schema.ValidateDatabaseFields(required, db.value).Fail? ==>
              r == StageRun([GetDatabase(databaseID)],
                            Failure(ValidationFailed(Schema.ValidateDatabaseFields(required, db.value).error)))
    ensures var db := s.notion.getDatabase(databaseID);
            var pf := PagesFetcher(s, databaseID, fields);
            db.Success? && Schema.ValidateDatabaseFields(required, db.value).Pass? && Paging.Drain(pf, "", pagesBudget).Failure? ==>
              r == StageRun([GetDatabase(databaseID)] + QueryCalls(databaseID, Paging.Requested(pf, "", pagesBudget)),
                            Failure(GetPagesFailed(Paging.Drain(pf, "", pagesBudget).error)))
    ensures var db := s.notion.getDatabase(databaseID);
            var pf := PagesFetcher(s, databaseID, fields);
            var sf := StarsFetcher(s);
            db.Success? && Schema.ValidateDatabaseFields(required, db.value).Pass? && Paging.Drain(pf, "", pagesBudget).Success? ==>
              && r.calls == [GetDatabase(databaseID)] + QueryCalls(databaseID, Paging.Requested(pf, "", pagesBudget))
                            + ListCalls(Paging.Requested(sf, 0, starsBudget))
              && (Paging.Drain(sf, 0, starsBudget).Failure? ==>
                    r.result == Failure(GetStarsFailed(Paging.Drain(sf, 0, starsBudget).error)))
  {
    var get := [GetDatabase(databaseID)];
    match s.notion.getDatabase(databaseID)
    case Failure(e) => StageRun(get, Failure(GetDatabaseFailed(e)))
    case Success(db) =>
      match Schema.ValidateDatabaseFields(required, db)
      case Fail(e) => StageRun(get, Failure(ValidationFailed(e)))
      case Pass =>
        var pagesRun := ReadPages(s, databaseID, fields, pagesBudget);
        StagesConcat(get, pagesRun.calls, 0, 0, 1);
        var upToPages := get + pagesRun.calls;
        match pagesRun.result
        case Failure(e) => StageRun(upToPages, Failure(e))
        case Success(pages) =>
          var starsRun := ReadStars(s, starsBudget);
          StagesConcat(upToPages, starsRun.calls, 0, 1, 2);
          var upToStars := upToPages + starsRun.calls;
          match starsRun.result
          case Failure(e) => StageRun(upToStars, Failure(e))
          case Success(repos) => StageRun(upToStars, Success((pages, repos)))
  }

  /** The source's `SyncStars`: runs the reading stages and, when they all
      succeed, syncs what they read. The budgets bound how many pages each
      upstream returns; the source loops for as long as they say there is
      more. */
  function SyncStars(s: Syncer, databaseID: string, required: seq<Schema.RequiredProperty>,
                     fields: Ingest.PageFields, pagesBudget: nat, starsBudget: nat): (r: SyncRun)
    requires ReachedStagesStop(s, databaseID, required, fields, pagesBudget, starsBudget)
    ensures |r.calls| > 0 && r.calls[0] == GetDatabase(databaseID)
    ensures InStageOrder(r.calls)
    ensures r.outcome.Pass? <==> StagesSucceed(s, databaseID, required, fields, pagesBudget, starsBudget)
    ensures r.outcome.Fail? ==> r.notification.None? && forall i :: 0 <= i < |r.calls| ==> !r.calls[i].IsWrite()
    ensures r.outcome.Pass? ==>
              var report := DoSync(s, databaseID,
                                   DatabasePagesOf(Paging.Drain(PagesFetcher(s, databaseID, fields), "", pagesBudget).value),
                                   StarredRepoCollectionOf(Paging.Drain(StarsFetcher(s), 0, starsBudget).value));
              && |report.calls| <= |r.calls|
              && r.calls[|r.calls| - |report.calls|..] == report.calls
              && r.notification == report.notification
  {
    var read := ReadStages(s, databaseID, required, fields, pagesBudget, starsBudget);
    match read.result
    case Failure(e) =>
      ReadsAreNotWrites(read.calls);
      SyncRun(read.calls, Fail(e), None)
    case Success((pages, repos)) =>
      var report := DoSync(s, databaseID, DatabasePagesOf(pages), StarredRepoCollectionOf(repos));
      StagesConcat(read.calls, report.calls, 0, 2, 4);
      var calls := read.calls + report.calls;
      assert calls[|calls| - |report.calls|..] == report.calls;
      SyncRun(calls, Pass, report.notification)
  }

  /** A run that fails stops at the failing stage and returns that stage's
      error, sends nothing and writes nothing: after a database or schema
      failure only the database get was issued, after a pages failure the
      queries follow it, after a stars failure the listings follow those. A
      run never fails for a missing client. */
  lemma SyncStarsStopsEarly(s: Syncer, databaseID: string, required: seq<Schema.RequiredProperty>,
                            fields: Ingest.PageFields, pagesBudget: nat, starsBudget: nat)
    requires ReachedStagesStop(s, databaseID, required, fields, pagesBudget, starsBudget)
    ensures var r := SyncStars(s, databaseID, required, fields, pagesBudget, starsBudget);
      && (r.outcome.Fail? && (r.outcome.error.GetDatabaseFailed? || r.outcome.error.ValidationFailed?)
          ==> r.calls == [GetDatabase(databaseID)])
      && (r.outcome.Fail? && r.outcome.error.GetPagesFailed? ==> StagesWithin(r.calls, 0, 1))
      && (r.outcome.Fail? ==> !r.outcome.error.NilGithubClient? && !r.outcome.error.NilNotionClient?)
    ensures var r := SyncStars(s, databaseID, required, fields, pagesBudget, starsBudget);
            var db := s.notion.getDatabase(databaseID);
            db.Failure? ==> r == SyncRun([GetDatabase(databaseID)], Fail(GetDatabaseFailed(db.error)), None)
    ensures var r := SyncStars(s, databaseID, required, fields, pagesBudget, starsBudget);
            var db := s.notion.getDatabase(databaseID);
            db.Success? && Schema.ValidateDatabaseFields(required, db.value).Fail? ==>
              r == SyncRun([GetDatabase(databaseID)],
                           Fail(ValidationFailed(Schema.ValidateDatabaseFields(required, db.value).error)), None)
    ensures var r := SyncStars(s, databaseID, required, fields, pagesBudget, starsBudget);
            var db := s.notion.getDatabase(databaseID);
            var pf := PagesFetcher(s, databaseID, fields);
            db.Success? && Schema.ValidateDatabaseFields(required, db.value).Pass? && Paging.Drain(pf, "", pagesBudget).Failure? ==>
              r == SyncRun([GetDatabase(databaseID)] + QueryCalls(databaseID, Paging.Requested(pf, "", pagesBudget)),
                           Fail(GetPagesFailed(Paging.Drain(pf, "", pagesBudget).error)), None)
    ensures var r := SyncStars(s, databaseID, required, fields, pagesBudget, starsBudget);
            var db := s.notion.getDatabase(databaseID);
            var pf := PagesFetcher(s, databaseID, fields);
            var sf := StarsFetcher(s);
            db.Success? && Schema.ValidateDatabaseFields(required, db.value).Pass? && Paging.Drain(pf, "", pagesBudget).Success?
            && Paging.Drain(sf, 0, starsBudget).Failure? ==>
              r == SyncRun([GetDatabase(databaseID)] + QueryCalls(databaseID, Paging.Requested(pf, "", pagesBudget))
                             + ListCalls(Paging.Requested(sf, 0, starsBudget)),
                           Fail(GetStarsFailed(Paging.Drain(sf, 0, starsBudget).error)), None)
  {
    var read := ReadStages(s, databaseID, required, fields, pagesBudget, starsBudget);
    assert read.result.Failure? ==>
      SyncStars(s, databaseID, required, fields, pagesBudget, starsBudget) == SyncRun(read.calls, Fail(read.result.error), None);
  }

  /** A run that stops at the database get or the schema check does so
      whatever either upstream would return: no budget is needed. */
  lemma EarlyExitNeedsNoUpstream(s: Syncer, databaseID: string, required: seq<Schema.RequiredProperty>,
                                 fields: Ingest.PageFields)
    requires !ReachesPages(s, databaseID, required)
    ensures ReachedStagesStop(s, databaseID, required, fields, 0, 0)
    ensures var r := SyncStars(s, databaseID, required, fields, 0, 0);
            r.outcome.Fail? && r.calls == [GetDatabase(databaseID)] && r.notification.None?
  {
  }

  /** A run that passes issues, in order, the database get, every query,
      every listing and then the writes of `doSync`, and sends what `doSync`
      sends. */
  lemma SyncStarsFullRun(s: Syncer, databaseID: string, required: seq<Schema.RequiredProperty>,
                         fields: Ingest.PageFields, pagesBudget: nat, starsBudget: nat)
    requires ReachedStagesStop(s, databaseID, required, fields, pagesBudget, starsBudget)
    requires StagesSucceed(s, databaseID, required, fields, pagesBudget, starsBudget)
    ensures var r := SyncStars(s, databaseID, required, fields, pagesBudget, starsBudget);
            var pf := PagesFetcher(s, databaseID, fields);
            var sf := StarsFetcher(s);
            var report := DoSync(s, databaseID, DatabasePagesOf(Paging.Drain(pf, "", pagesBudget).value),
                                 StarredRepoCollectionOf(Paging.Drain(sf, 0, starsBudget).value));
            && r.outcome == Pass
            && r.calls == [GetDatabase(databaseID)] + QueryCalls(databaseID, Paging.Requested(pf, "", pagesBudget))
                          + ListCalls(Paging.Requested(sf, 0, starsBudget)) + report.calls
            && r.notification == report.notification
  {
    var read := ReadStages(s, databaseID, required, fields, pagesBudget, starsBudget);
    var report := DoSync(s, databaseID, DatabasePagesOf(read.result.value.0), StarredRepoCollectionOf(read.result.value.1));
    assert SyncStars(s, databaseID, required, fields, pagesBudget, starsBudget)
           == SyncRun(read.calls + report.calls, Pass, report.notification);
  }

  /** Requests of the reading stages are not writes. */
  lemma ReadsAreNotWrites(calls: seq<Call>)
    requires StagesWithin(calls, 0, 2)
    ensures forall i :: 0 <= i < |calls| ==> !calls[i].IsWrite()
  {
    forall i | 0 <= i < |calls|
      ensures !calls[i].IsWrite()
    {
      assert calls[i].Stage() <= 2;
    }
  }

  /** Every request belongs to a stage between `lo` and `hi`. */
  ghost predicate StagesWithin(calls: seq<Call>, lo: nat, hi: nat)
  {
    forall i :: 0 <= i < |calls| ==> lo <= calls[i].Stage() <= hi
  }

  /** Two request lists in stage order, the first at or below stage `k` and
      the second above it, are in stage order one after the other. */
  lemma {:induction false} StagesConcat(a: seq<Call>, b: seq<Call>, lo: nat, k: nat, hi: nat)
    requires InStageOrder(a) && InStageOrder(b)
    requires lo <= k < hi
    requires StagesWithin(a, lo, k) && StagesWithin(b, k + 1, hi)
    ensures InStageOrder(a + b) && StagesWithin(a + b, lo, hi)
    decreases |a|
  {
    if |a| == 0 {
      assert a + b == b;
    } else if |a| == 1 {
      if |b| > 0 {
        assert (a + b)[1..] == b;
      }
    } else {
      StagesConcat(a[1..], b, lo, k, hi);
      assert (a + b)[1..] == a[1..] + b;
    }
  }
}

=== FILE: text.dfy ===
/** String helpers with Go's semantics: `strings.Split` with a one-character
    separator, `strings.Contains`, and `%d` rendering of a natural number. */
module Text {

  /** Number of occurrences of `c` in `s`. */
  function CountChar(s: string, c: char): nat
    decreases |s|
  {
    if |s| == 0 then 0 else (if s[0] == c then 1 else 0) + CountChar(s[1..], c)
  }

  /** The pieces with `sep` between consecutive ones (Go's `strings.Join`). */
  function Join(parts: seq<string>, sep: char): string
    decreases |parts|
  {
    if |parts| == 0 then ""
    else if |parts| == 1 then parts[0]
    else parts[0] + [sep] + Join(parts[1..], sep)
  }

  /** Go's `strings.Split(s, sep)` for a one-character separator: the text
      between consecutive separators, so never fewer than one piece. */
  function Split(s: string, sep: char): (parts: seq<string>)
    ensures |parts| == CountChar(s, sep) + 1
    ensures forall i :: 0 <= i < |parts| ==> sep !in parts[i]
    decreases |s|
  {
    if |s| == 0 then [""]
    else
      var rest := Split(s[1..], sep);
      if s[0] == sep then [""] + rest
      else [[s[0]] + rest[0]] + rest[1..]
  }

  /** Joining the pieces of a split gives back the input. */
  lemma {:induction false} JoinSplit(s: string, sep: char)
    ensures Join(Split(s, sep), sep) == s
    decreases |s|
  {
    if |s| > 0 {
      JoinSplit(s[1..], sep);
      var rest := Split(s[1..], sep);
      if s[0] == sep {
        assert ([""] + rest)[1..] == rest;
      } else if |rest| == 1 {
        assert Split(s, sep) == [[s[0]] + rest[0]];
      } else {
        var parts := [[s[0]] + rest[0]] + rest[1..];
        assert parts[1..] == rest[1..];
        assert Join(rest, sep) == rest[0] + [sep] + Join(rest[1..], sep);
        assert s == [s[0]] + s[1..];
      }
    }
  }

  /** A separator-free piece followed by the separator splits off as one piece. */
  lemma {:induction false} SplitPrefix(p: string, sep: char, t: string)
    requires sep !in p
    ensures Split(p + [sep] + t, sep) == [p] + Split(t, sep)
    decreases |p|
  {
    var s := p + [sep] + t;
    if |p| == 0 {
      assert s == [sep] + t;
      assert s[1..] == t;
    } else {
      assert s[1..] == p[1..] + [sep] + t;
      SplitPrefix(p[1..], sep, t);
      assert [p[0]] + p[1..] == p;
    }
  }

  /** A separator-free string splits into itself alone. */
  lemma {:induction false} SplitNoSeparator(p: string, sep: char)
    requires sep !in p
    ensures Split(p, sep) == [p]
    decreases |p|
  {
    if |p| > 0 {
      SplitNoSeparator(p[1..], sep);
      assert [p[0]] + p[1..] == p;
    }
  }

  /** Splitting the join of separator-free pieces gives back the pieces. */
  lemma {:induction false} SplitJoin(parts: seq<string>, sep: char)
    requires |parts| > 0
    requires forall i :: 0 <= i < |parts| ==> sep !in parts[i]
    ensures Split(Join(parts, sep), sep) == parts
    decreases |parts|
  {
    if |parts| == 1 {
      SplitNoSeparator(parts[0], sep);
    } else {
      SplitJoin(parts[1..], sep);
      SplitPrefix(parts[0], sep, Join(parts[1..], sep));
    }
  }

  /** True iff `sub` occurs at offset `i` of `s`. */
  ghost predicate OccursAt(s: string, sub: string, i: int)
  {
    0 <= i && i + |sub| <= |s| && s[i..i + |sub|] == sub
  }

  /** Go's `strings.Contains(s, sub)`: `sub` occurs somewhere in `s`. */
  function Contains(s: string, sub: string): (b: bool)
    ensures b <==> exists i :: OccursAt(s, sub, i)
    decreases |s|
  {
    if |sub| > |s| then false
    else if s[..|sub|] == sub then
      assert OccursAt(s, sub, 0);
      true
    else
      OccursShift(s, sub);
      Contains(s[1..], sub)
  }

  /** When `sub` is not a prefix of `s`, it occurs in `s` iff it occurs in `s` minus its first character. */
  lemma OccursShift(s: string, sub: string)
    requires |sub| <= |s| && s[..|sub|] != sub
    ensures (exists i :: OccursAt(s, sub, i)) <==> (exists i :: OccursAt(s[1..], sub, i))
  {
    if i :| OccursAt(s[1..], sub, i) {
      assert s[1..][i..i + |sub|] == s[i + 1..i + 1 + |sub|];
      assert OccursAt(s, sub, i + 1);
    }
    if i :| OccursAt(s, sub, i) {
      assert i != 0;
      assert s[1..][i - 1..i - 1 + |sub|] == s[i..i + |sub|];
      assert OccursAt(s[1..], sub, i - 1);
    }
  }

  predicate IsDigit(c: char)
  {
    '0' <= c <= '9'
  }

  function DigitChar(d: nat): (c: char)
    requires d < 10
    ensures IsDigit(c)
  {
    (48 + d) as char
  }

  function DigitValue(c: char): nat
    requires IsDigit(c)
  {
    c as int - 48
  }

  /** Go's `fmt.Sprintf("%d", n)` for a non-negative `n`: decimal digits, no
      leading zero. */
  function NatToString(n: nat): (s: string)
    ensures |s| > 0
    ensures forall i :: 0 <= i < |s| ==> IsDigit(s[i])
    ensures |s| > 1 ==> s[0] != '0'
    decreases n
  {
    if n < 10 then [DigitChar(n)] else NatToString(n / 10) + [DigitChar(n % 10)]
  }

  /** The value of a string of decimal digits, most significant first. */
  function ParseNat(s: string): nat
    requires forall i :: 0 <= i < |s| ==> IsDigit(s[i])
    decreases |s|
  {
    if |s| == 0 then 0 else ParseNat(s[..|s| - 1]) * 10 + DigitValue(s[|s| - 1])
  }

  /** The rendering of a count reads back as the same count. */
  lemma {:induction false} ParseNatToString(n: nat)
    ensures ParseNat(NatToString(n)) == n
    decreases n
  {
    var s := NatToString(n);
    if n >= 10 {
      ParseNatToString(n / 10);
      assert s[..|s| - 1] == NatToString(n / 10);
    }
  }
}

=== FILE: wechat.dfy ===
/** The WeChat Work notifier: built from one comma-separated parameter
    string, absent when that string is unusable, and a no-op when absent. */
module Wechat {
  import opened Wrappers
  import opened Text

  datatype WechatNotifier = WechatNotifier(corpid: string, corpsecret: string, toUser: string, agentid: string)

  /** The message request the notifier posts (the access token it fetches
      first, and the HTTP exchange, are not modelled). */
  datatype SendRequest = SendRequest(toUser: string, msgType: string, agentid: string, content: string, safe: string)

  /** The source's `NewWechatNotifier`: no notifier for an empty string or
      for fewer than four comma-separated fields; otherwise the first four
      fields, in order, and the rest ignored. */
  function NewWechatNotifier(params: string): (r: Option<WechatNotifier>)
    ensures r.Some? <==> CountChar(params, ',') >= 3
    ensures r.Some? ==>
              && ',' !in r.value.corpid && ',' !in r.value.corpsecret
              && ',' !in r.value.toUser && ',' !in r.value.agentid
              && params == Join([r.value.corpid, r.value.corpsecret, r.value.toUser, r.value.agentid]
                                + Split(params, ',')[4..], ',')
  {
    if |params| == 0 then None
    else
      var fields := Split(params, ',');
      if |fields| < 4 then None
      else
        JoinSplit(params, ',');
        assert fields == fields[..4] + fields[4..];
        assert fields[..4] == [fields[0], fields[1], fields[2], fields[3]];
        Some(WechatNotifier(fields[0], fields[1], fields[2], fields[3]))
  }

  /** Building from four comma-free fields, followed by anything after a
      further comma, gives exactly those four fields. */
  lemma NewWechatNotifierRoundTrip(corpid: string, corpsecret: string, toUser: string, agentid: string, extra: seq<string>)
    requires ',' !in corpid && ',' !in corpsecret && ',' !in toUser && ',' !in agentid
    ensures NewWechatNotifier(Join([corpid, corpsecret, toUser, agentid] + extra, ','))
            == Some(WechatNotifier(corpid, corpsecret, toUser, agentid))
  {
    SplitFourFields(corpid, corpsecret, toUser, agentid, extra);
  }

  /** Splitting four comma-free fields and anything after a further comma
      gives those four fields first. */
  lemma SplitFourFields(corpid: string, corpsecret: string, toUser: string, agentid: string, extra: seq<string>)
    requires ',' !in corpid && ',' !in corpsecret && ',' !in toUser && ',' !in agentid
    ensures var params := Join([corpid, corpsecret, toUser, agentid] + extra, ',');
            var fields := Split(params, ',');
            && |params| > 0 && |fields| >= 4
            && fields[0] == corpid && fields[1] == corpsecret && fields[2] == toUser && fields[3] == agentid
  {
    var t := Join([agentid] + extra, ',');
    JoinFourFields(corpid, corpsecret, toUser, agentid, extra);
    SplitThreeFields(corpid, corpsecret, toUser, t);
    SplitLastFields(agentid, extra);
  }

  /** Joining four fields and more puts the first three, each followed by a
      comma, before the join of the rest. */
  lemma JoinFourFields(corpid: string, corpsecret: string, toUser: string, agentid: string, extra: seq<string>)
    ensures Join([corpid, corpsecret, toUser, agentid] + extra, ',')
            == corpid + [','] + (corpsecret + [','] + toUser + [','] + Join([agentid] + extra, ','))
  {
    var parts := [corpid, corpsecret, toUser, agentid] + extra;
    var tail := [toUser, agentid] + extra;
    JoinCons(parts);
    assert parts[1..] == [corpsecret] + tail;
    JoinCons(parts[1..]);
    assert parts[1..][1..] == tail;
    JoinCons(tail);
    assert tail[1..] == [agentid] + extra;
    JoinFour(corpid, corpsecret, toUser, Join([agentid] + extra, ','));
  }

  /** Three comma-free fields, each followed by a comma, split off in front
      of whatever follows. */
  lemma SplitThreeFields(a: string, b: string, c: string, t: string)
    requires ',' !in a && ',' !in b && ',' !in c
    ensures Split(a + [','] + (b + [','] + c + [','] + t), ',') == [a, b, c] + Split(t, ',')
  {
    SplitPrefix(a, ',', b + [','] + c + [','] + t);
    SplitPrefix(b, ',', c + [','] + t);
    SplitPrefix(c, ',', t);
    JoinFour(a, b, c, t);
  }

  /** A comma-free field, then anything after a further comma, splits with
      that field first. */
  lemma SplitLastFields(agentid: string, extra: seq<string>)
    requires ',' !in agentid
    ensures |Split(Join([agentid] + extra, ','), ',')| >= 1
    ensures Split(Join([agentid] + extra, ','), ',')[0] == agentid
  {
    var last := [agentid] + extra;
    if |extra| == 0 {
      SplitNoSeparator(agentid, ',');
    } else {
      JoinCons(last);
      assert last[1..] == extra;
      SplitPrefix(agentid, ',', Join(extra, ','));
    }
  }

  /** The two groupings of three comma-joined fields and a tail agree. */
  lemma JoinFour(a: string, b: string, c: string, t: string)
    ensures a + [','] + (b + [','] + (c + [','] + t)) == a + [','] + (b + [','] + c + [','] + t)
    ensures b + [','] + (c + [','] + t) == b + [','] + c + [','] + t
  {
  }

  /** Joining at least two pieces puts the first, a separator, then the rest. */
  lemma JoinCons(parts: seq<string>)
    requires |parts| >= 2
    ensures Join(parts, ',') == parts[0] + [','] + Join(parts[1..], ',')
  {
  }

  /** The source's `SendMsg`, up to the request it posts: an absent notifier
      does nothing; a present one sends the message text to its user and
      agent. */
  function SendMsg(w: Option<WechatNotifier>, msg: string): (r: Option<SendRequest>)
    ensures r.None? <==> w.None?
    ensures r.Some? ==> r.value.content == msg && r.value.toUser == w.value.toUser && r.value.agentid == w.value.agentid
  {
    match w
    case None => None
    case Some(n) => Some(SendRequest(n.toUser, "text", n.agentid, msg, "0"))
  }

  /** A send response counts as success iff its `errmsg` contains "ok". */
  function SendSucceeded(errMsg: string): (ok: bool)
    ensures ok <==> exists i :: OccursAt(errMsg, "ok", i)
  {
    Contains(errMsg, "ok")
  }
}

=== FILE: wrappers.dfy ===
/** Failure-carrying datatypes shared by the whole model. */
module Wrappers {

  /** A value that may be absent; stands in for Go's nil pointers. */
  datatype Option<+T> = None | Some(value: T)

  /** A value or the error that prevented computing it; stands in for Go's `(T, error)` pairs. */
  datatype Result<+T, +E> = Success(value: T) | Failure(error: E)

  /** The outcome of an operation that returns only an error (`nil` is `Pass`). */
  datatype Outcome<+E> = Pass | Fail(error: E)
}
